=== FILE: README.md ===
# particle-pattern-emitter in Dafny

A model of the particle engine of abagames/particle-pattern-emitter: the
engine of `src/index.ts` and its older single-list variant `src/ppe/index.ts`.

An *emitter* is made once per pattern name. Its constructor takes the
per-type table selected by the name's first character (e, m, s, t, j) and
applies the caller's overrides and scales. It then multiplies every field
by a jitter factor drawn from a xorshift128 generator seeded with
`seed + hash(name)`, so an emitter's *template* is a deterministic
function of the seed and the name. `emit` appends jittered copies of the
template to a particle pool, or to the static list `Particle.s` in the
legacy engine, drawing from `Math.random`. `update` moves every particle
once. It grows or shrinks the particle and blends and sparkles its colour
while the particle is live. It splices out the particles it finds past
their end.

Modules, one file each:

- `Util`: `Option`, `NoDup`, and `Select`, what an in-order splicing loop leaves.
- `Ambient`: `Math.random` as an explicit stream of reals in [0,1).
- `Hash`: the UTF-16 code units of a string, `getHashFromString` and JavaScript's int32 wrap.
- `Prng`: both xorshift128 generators.
- `Colors`: `Color`, `clamp`, `limitColor`, lerp and sparkle.
- `Lifecycle`: the numeric state machine of `Particle.update`, shared by both engines.
- `Templates`: the type table, the constructor's arithmetic and the spawn jitter.
- `Particles`, `Emitters`, `Registry`: `Particle`/`ParticlePool`, `Emitter` and the module functions of `src/index.ts`.
- `LegacyParticles`, `LegacyEmitters`, `LegacyRegistry`: the same for `src/ppe/index.ts`.

State the source updates in place is a class: `Random`, `Color`,
`Particle`, `ParticlePool`, `Emitter`, and the module globals as `Engine`.
Pure computations are functions: the colour table, the template, the
body of one update. Each method is proved against those functions.

A particle's three phase colours (`beginColor`, `middleColor`,
`endColor`) are `const` fields: `emit` writes them once, right after
`new Particle()`, and no other code assigns them. An emitter's
`Built()` says that its template, hue and colours are the ones its
origin (type code, options, scale ratio, generator state) determines;
both engines keep every cached emitter built (`AllBuilt`).

Points of the code's behaviour that the model makes explicit:

- **Spawn count.** `emit`'s loop `for (i = 0; i < count; i++)` makes
  ceil(count) particles, not floor(count) (`CountBelow`).
- **Colour table.** The constructor's sector table is the standard HSV
  conversion. For hue in [0,1) the largest channel is `value` and the
  smallest is value·(1 − saturation) (`HsvExtremes`).
- **Lerp.** `getLerped` does not clamp. A blend stays in [0,1] because
  both colours and the ratio do (`Lerp`, `PhaseRatio`, `Glow`). A
  constructed colour is in [0,1] when its saturation and value are
  (`HsvBounds`), as in all of the engine's palettes.
- **Name hash.** `getHashFromString` runs over `charCodeAt`, the string's
  UTF-16 code units: a character past U+FFFF counts as its two surrogates
  (`Utf16`, `Utf16Emoji`).
- **Legacy draws.** The legacy `get01` divides a *signed* int32 by
  0x7fffffff, so it ranges over [−2^31/(2^31−1), 1], not [0,1].
  - `getForParam` can then be negative.
  - A jittered template can have negative ticks and its end before its
    middle (`LegacyTicksInverted`).
  - A negative hue gives grey colours (`HsvGrey`).
- **Legacy seeding.** The legacy `setSeed` treats the argument −0x7fffffff
  as "no seed" and draws from `Math.random` again. A pattern whose
  `seed + hash` equals that value gets an emitter seeded from
  `Math.random` (`SeedArg`, `MakeDraws`).

## Model

| member | source | states |
|---|---|---|
| Ambient.MathRandom.Next | src/index.ts:160 | a `Math.random()` call returns the next value of the stream, which lies in [0,1), and consumes it |
| Hash.ToInt32 | src/index.ts:386 | `h \|= 0` always lands in the int32 range [−2^31, 2^31) |
| Hash.EncodePair | src/index.ts:384 | a character past U+FFFF becomes a high surrogate in [0xD800, 0xDC00) and a low one in [0xDC00, 0xE000), from which the character is recovered as 0x10000 + (hi − 0xD800)·0x400 + (lo − 0xDC00) |
| Hash.EncodeSingle | src/index.ts:384 | a character below U+10000 is the one code unit of its own value, never a surrogate |
| Hash.Utf16Concat | src/index.ts:382-384 | the code units of a concatenation are those of its parts in order |
| Hash.Utf16Narrow | src/index.ts:382-384 | without characters past U+FFFF, `length` is the number of characters and `charCodeAt(i)` the i-th character's value |
| Hash.Utf16Emoji | src/index.ts:382-384 | U+1F600 is the two code units 0xD83D 0xDE00, so it counts twice in the hash |
| Hash.NameHash | src/index.ts:380-389 | the hash of every prefix of the code units is an int32 |
| Hash.NameHashRolling | src/index.ts:380-389 | wrapping to int32 after every code unit gives the int32 wrap of the unbounded rolling hash h·31 + code unit from 0 |
| Hash.HashStep | src/index.ts:385-386 | one step `(h << 5) - h + chr; h \|= 0` on an int32 h equals the wrap of h·31 + chr |
| Hash.ToInt32Periodic | src/index.ts:386 | `\|= 0` does not see multiples of 2^32 |
| Hash.GetHashFromString | src/index.ts:380-389 | the loop over the string's UTF-16 code units returns their per-step wrapped hash, which equals the int32 wrap of the unbounded rolling hash, so "" hashes to 0 |
| Prng.AdvanceAdd | src/index.ts:446-448 | m steps followed by n steps are m + n steps |
| Prng.SeedModulo | src/index.ts:442 | seeds equal modulo 2^32 (`w >>> 0`) give the same generator |
| Prng.Unit | src/index.ts:412 | a word over 0xffffffff lies in [0,1], 0 for the zero word and 1 for the all-ones word |
| Prng.Scaled | src/index.ts:412 | `get(lo, hi)` on a unit draw lies in [lo, hi], lo at 0 and hi at 1 |
| Prng.Units | src/index.ts:407-413 | the next n `get()` values of a state all lie in [0,1] |
| Prng.Random.constructor | src/index.ts:461-465 | `new Random()` takes one ambient draw u and holds the state `setSeed` gives the word floor(u·0xffffffff) >>> 0 |
| Prng.Random.SetSeed | src/index.ts:435-450 | after `setSeed(w)` the state is 32 steps on from (123456789, 362436069, 521288629, w >>> 0), a function of w alone |
| Prng.Random.GetToMaxInt | src/index.ts:452-459 | one xorshift128 step: x, y, z take the old y, z, w; w becomes w ^ (w >>> 19) ^ t ^ (t >>> 8) with t = x ^ (x << 11); the new w is returned |
| Prng.Random.Get | src/index.ts:407-413 | one step; with one bound the range is [0, bound], with two [from, to] |
| Prng.Random.GetForParam | src/index.ts:431-433 | one step; the result is the unit draw plus 0.5 and lies in [0.5, 1.5] |
| Prng.Signed | src/ppe/index.ts:314-315 | the value a word encodes as a signed int32 |
| Prng.Get01Of | src/ppe/index.ts:318-320 | `get01` of a word lies in [−2^31/(2^31−1), 1] |
| Prng.Get01Negative | src/ppe/index.ts:318-320 | `get01` can be negative and can fall below −1 |
| Prng.LegacyUnits | src/ppe/index.ts:318-320 | the next n `get01` values of a state all lie in [−2, 1] |
| Prng.LegacyRandom.constructor | src/ppe/index.ts:298-307 | a generator holds the state it is given, the one its `setSeed` produced |
| Prng.LegacyRandom.GetInt | src/ppe/index.ts:309-316 | one xorshift128 step with sign-propagating shifts; the new w is returned as a signed int32 |
| Prng.LegacyRandom.Get01 | src/ppe/index.ts:318-320 | one step; the signed new w over 0x7fffffff |
| Prng.LegacyRandom.GetForParam | src/ppe/index.ts:322-324 | one step; `get01` of the new w plus 0.5 |
| Colors.Clamp | src/index.ts:391-399 | the result lies in [0,1], leaves a value of [0,1] alone and is the point of [0,1] nearest the argument |
| Colors.ClampCloser | src/index.ts:391-399 | clamping never moves a value away from a point of [0,1] |
| Colors.LimitColor | src/index.ts:375-377 | the result is 0, 0.5 or 1 and lies within 0.25 of any argument in [0,1] |
| Colors.LimitColorIdempotent | src/index.ts:375-377 | quantising twice is quantising once |
| Colors.LimitColorMonotone | src/index.ts:375-377 | quantising keeps the order of two channel values |
| Colors.HsvBounds | src/index.ts:291-322 | for saturation and value in [0,1], every channel lies in [0, value], whatever the hue |
| Colors.HsvExtremes | src/index.ts:291-322 | for hue in [0,1) the largest channel is value and the smallest value·(1 − saturation) |
| Colors.SectorOrder | src/index.ts:297-322 | with ordered levels, each of the six cases puts value on top and the floor level at the bottom |
| Colors.HsvGrey | src/index.ts:294-322 | a hue outside [0,1) matches no case and leaves r = g = b = value |
| Colors.Lerp | src/index.ts:358-362 | the blend is the first colour's channel at ratio 0 and the other's at 1, and lies between them for a ratio in [0,1] |
| Colors.SparkleChannel | src/index.ts:339-347 | a sparkled channel lies in [0,1] and, for a channel and draw in [0,1], within the sparkle ratio of the source channel |
| Colors.SparkleInRange | src/index.ts:335-352 | all three sparkled channels lie in [0,1], with or without colour limiting |
| Colors.Color.constructor | src/index.ts:285-326 | the channels are the sector table of (hue, saturation, value), quantised exactly when colour limiting is on; the four arguments are kept; no cache yet |
| Colors.Color.LimitRgb | src/index.ts:369-373 | each channel is quantised in place; nothing else changes |
| Colors.Color.GetLerped | src/index.ts:354-367 | the result is this colour's one cached colour (allocated on first call, the same object afterwards, whose own caches are kept); it holds the blend of both colours' channels and sparkle ratios at the ratio, quantised when limiting |
| Colors.Color.GetSparkled | src/index.ts:335-352 | the result is this colour's one cached sparkled colour (the same object after the first call, keeping its sparkle ratio and caches); it takes three draws in r, g, b order and holds the clamped jittered channels, quantised when limiting |
| Lifecycle.CountBelow | src/index.ts:163 | the number of loop passes `for (i = 0; i < c; i++)` makes: the least natural number n with c <= n |
| Lifecycle.CountBelowSpec | src/index.ts:163 | pass i runs exactly when i < c |
| Lifecycle.MoveTicks | src/index.ts:213-240 | ticks grows by exactly 1 when the particle is live and is unchanged otherwise, as is its size; the phase limits, target size and angle never change |
| Lifecycle.GrowTowardTarget | src/index.ts:217-222 | while growing, each update closes a tenth of the gap to the target size |
| Lifecycle.ShrinkTowardZero | src/index.ts:223-228 | while shrinking, a non-negative size never grows and stays non-negative |
| Lifecycle.PhaseRatio | src/index.ts:213-227 | once the dead check has passed, the blend ratio of either phase lies in [0,1), so neither denominator is zero |
| Lifecycle.RatioBelowOne | src/index.ts:220-226 | a ratio a/d with 0 <= a < d lies in [0,1) |
| Lifecycle.PhaseStart | src/index.ts:217-227 | each phase starts at ratio 0: tick 0 of a growing particle and the first shrinking tick |
| Lifecycle.Glow | src/index.ts:218-230 | the colour a live update draws has every channel in [0,1] |
| Particles.Lifetime | src/index.ts:207-241 | after n updates ticks has grown by min(n, CountBelow(endTicks − ticks)); endTicks never changes |
| Particles.LiveAt | src/index.ts:213-216 | update k finds the particle live exactly when k < CountBelow(endTicks − ticks) |
| Particles.AliveAfter | src/index.ts:213-216 | isAlive falls on the first update that finds the particle past its end and never rises again |
| Particles.Particle.constructor | src/index.ts:190-205 | `new Particle()`: the whole initial state: at the origin, at rest, angle 0, speed 1, slowdown 0.01, size 0, target size 10, middle and end ticks 20 and 60, tick 0, alive, with no colours |
| Particles.Particle.Spawned | src/index.ts:164-184 | a new particle with the given position, velocity, numbers and shared colours, size 0, ticks 0, alive and no colour of its own |
| Particles.Particle.Update | src/index.ts:207-241 | the state takes one `Step`; the result is false exactly when the particle was past its end; a live particle takes three draws and its colour holds the sparkled blend of its phase at the phase ratio |
| Particles.Particle.Advance | src/index.ts:208-217 | the numeric part of `update`: the state takes one `Step`; the particle's own colour is left alone |
| Particles.Particle.Paint | src/index.ts:217-230 | the colour work of a live update: three draws, and the returned colour holds `Glow` of the phase ratio and the phase's two colours |
| Particles.LiveMarks | src/index.ts:257 | one mark per particle, set exactly when the particle has a live update left in its lifetime: 0 < CountBelow(endTicks − ticks), the count `Lifetime` and `LiveAt` use |
| Particles.ParticlePool.constructor | src/index.ts:244-250 | a new pool holds no particle |
| Particles.ParticlePool.Update | src/index.ts:252-263 | the pool keeps exactly the particles found live, in their order; every particle takes one `Step`; each live one takes three draws; no particle is held twice; a pool whose particles all have their three colours keeps that |
| Particles.AllColoredSpec | src/index.ts:182-184 | a list is `AllColored` exactly when every particle of it has its begin, middle and end colours set |
| Particles.SelectColored | src/index.ts:256-261 | the particles an update keeps are among those it started from, so a list of coloured particles stays coloured |
| Particles.ParticlePool.ColoredReady | src/index.ts:217-230 | a pool whose particles all have their three colours can take its next update |
| Particles.ParticlePool.Sweep | src/index.ts:256-262 | the splicing loop leaves `Select` of the list by the live marks and steps every particle once |
| Particles.ParticlePool.UpdateAt | src/index.ts:257-261 | one pass: the particle at i is the next one of the original list; it is spliced out exactly when found dead, and the index then stays put |
| Particles.ParticlePool.Clear | src/index.ts:269-271 | the pool becomes empty |
| Templates.TicksOrdered | src/index.ts:143-145 | with draws in [0,1], middleTicks is the table's value times a factor in [0.5,1.5], and endTicks − middleTicks is the table's span times such a factor, so 0 < middleTicks < endTicks for every type |
| Templates.FactorBounds | src/index.ts:431-433 | a positive base times a `getForParam` factor stays within half and one and a half times the base |
| Templates.UnknownTypeDefaults | src/index.ts:74-80 | a code keeps the field defaults (speed 1, slowdown 0.01, size 10, ticks 20/60, deflections 0/0.5/0.5/0.3, count 1) exactly when it is unrecognised or missing, and exactly then gets no colours; such an emitter with no hue option takes ten draws |
| Templates.AngleDraw | src/index.ts:110-124 | only m, t and j draw for the angle deflection |
| Templates.TablesAgree | src/ppe/index.ts:53-96 | the legacy table differs from the main one only in the value of the middle colour (1 instead of 0.9) |
| Templates.ScaleLinear | src/index.ts:137-139 | scaling sizeScale by c scales the speed, override included, and the target size by c and changes nothing else; scaling countScale by c scales the count alone |
| Templates.OverrideWins | src/index.ts:131-138 | a speed or slowdown option replaces the table value before any scaling |
| Templates.LegacyTicksInverted | src/ppe/index.ts:100-105 | with negative legacy draws a recognised type gets negative middleTicks and endTicks before it |
| Templates.SpawnCount | src/index.ts:160-163 | an emit spawns nothing or ceil(count) particles, and always ceil(count) when count >= 1 |
| Templates.SpawnChance | src/index.ts:160-162 | for count < 1 and a draw u in [0,1), one particle exactly when 0 < count and u <= count |
| Templates.SpawnAngle | src/index.ts:169 | the spawn angle lies in [angle − deflection/2, angle + deflection/2); the upper bound is open for a positive deflection |
| Templates.HalfSpread | src/index.ts:169 | the angle offset of a draw in [0,1) lies in [−width/2, width/2) |
| Templates.SpawnLive | src/index.ts:176-181 | every particle of every type starts with positive middle and end ticks, so its first update finds it live |
| Templates.DeflectedPositive | src/index.ts:176-181 | a ticks factor with deflection below 1 is positive |
| Emitters.NextParam | src/index.ts:431-433 | one `getForParam`, as the n-th of the generator's draws from a state |
| Emitters.Emitter.constructor | src/index.ts:82-150 | the template is `Build` of the type's row, the options and the scale ratio over the generator's next draws, taken in the source's order and number; a recognised type gets three fresh, distinct table colours of the emitter's hue, any other none; the emitter is `Built` from its origin |
| Emitters.Emitter.Draw | src/index.ts:83-149 | the constructor's draws: the hue if absent, the angle factor for a jittered type, then nine factors, exactly `DrawCount` steps of the generator |
| Emitters.Emitter.Tints | src/index.ts:92-121 | three fresh, distinct colours of the palette with the emitter's hue |
| Emitters.Emitter.Jitter | src/index.ts:140-149 | nine `getForParam` draws into speed, slowdown, size, middle ticks, span, the three deflections and the count, in that order |
| Emitters.Emitter.Emit | src/index.ts:152-187 | the pool becomes its old list followed by `Spawns` new, fresh particles: none if count < 1 and count < the first draw, else ceil(count); the j-th is made from the j-th five draws; earlier entries are unchanged |
| Emitters.Emitter.Unchanged | src/index.ts:160-162 | an emit that spawns nothing leaves the list as it was |
| Emitters.Emitter.SpawnAll | src/index.ts:163-186 | the loop appends ceil(count) fresh particles, five draws each, and keeps the pool free of duplicates |
| Emitters.Emitter.AppendOne | src/index.ts:185 | pushing one more made particle extends the appended run by one |
| Emitters.Emitter.Spawn | src/index.ts:164-184 | a fresh particle at (x, y) with velocity (velX, velY), ticks 0, the jittered numbers of five draws and the emitter's colours |
| Registry.Extend | src/index.ts:185 | appending particles found in no pool keeps the pools' lists separate |
| Registry.Register | src/index.ts:248-250 | a new, empty pool joins the registered ones |
| Registry.Sifted | src/index.ts:36-41 | keeping a selection of each of separate lists keeps them separate |
| Registry.SiftedColored | src/index.ts:36-41 | keeping a selection of each of a number of coloured lists keeps every one coloured |
| Registry.Apart | src/index.ts:37-40 | of separate lists, no particle of another list is in list i |
| Registry.Run | src/index.ts:38-39 | one pool's `update` over the list it starts from: the pool keeps `Select` of it by the live marks, the list's states become `StepAll` of the old ones, three draws per live particle |
| Registry.CacheBuilt | src/index.ts:29 | caching one more built emitter keeps every cached emitter built |
| Registry.Engine.constructor | src/index.ts:1-10 | the initial state: scale ratio 1, limiting off, no emitters, seed 0, no pools, no default pool |
| Registry.Engine.SetOptions | src/index.ts:68-72 | every option given replaces the current one; the rest of the state is unchanged |
| Registry.Engine.NewPool | src/index.ts:248-250 | a new, empty pool is registered at the end of `pools` |
| Registry.Engine.SetSeed | src/index.ts:47-49 | only the seed changes |
| Registry.Engine.EmitterFor | src/index.ts:26-30 | a cached name keeps its emitter and takes no draw, whatever the options; an uncached one gets a fresh emitter and one ambient draw, whose template is `Build` of the name's row over the draws after the state `setSeed(seed + hash(name))` leaves; every cached emitter stays built |
| Registry.Engine.NewEmitter | src/index.ts:27-29 | `new Random()` takes one ambient draw; the emitter is built from the state `setSeed(seed + hash(name))` leaves, with the name's type code, the options and the scale ratio |
| Registry.Engine.Emit | src/index.ts:15-34 | the default pool is made and registered on first need; the name's emitter, cached or new and built from its origin, appends its particles to the chosen pool with the options' velocity (0 where absent), starting at the draw after the one an uncached emitter takes; no other pool changes; the pools stay separate and every cached emitter stays built |
| Registry.Engine.EmitWith | src/index.ts:26-33 | once the pool is chosen, the name's emitter spawns into it from the given draw on |
| Registry.Engine.Target | src/index.ts:23-25 | the given pool, else the default pool, else a new registered one that becomes the default |
| Registry.Engine.EmitInto | src/index.ts:33 | the emitter's particles land in the target pool and the pools stay separate |
| Registry.Engine.Update | src/index.ts:36-41 | every registered pool keeps exactly its live particles, in order; every particle of every pool takes one `Step`; three draws per live particle; pools whose particles all have their three colours keep that |
| Registry.Engine.Sweep | src/index.ts:37-40 | the loop over the pools, against the lists and states it starts from: the same as `Update` |
| Registry.Engine.ReadyUpdatable | src/index.ts:37-40 | `Ready` holds pool by pool |
| Registry.Engine.ColoredReady | src/index.ts:217-230 | pools whose particles all have their three colours can take their next update |
| Registry.Engine.UpdatePool | src/index.ts:37-40 | one pool updates; no other pool and no particle of another pool changes |
| Registry.Engine.Clear | src/index.ts:56-61 | every registered pool is empty |
| Registry.Engine.Reset | src/index.ts:51-54 | no emitter is cached and every registered pool is empty; pools, options and seed are kept |
| Registry.Engine.ClearPools | src/index.ts:63-66 | exactly one pool is registered afterwards: the new, empty default pool |
| LegacyParticles.AtRest | src/ppe/index.ts:153-176 | a legacy update is the main engine's update of a particle whose velocity is zero, and that velocity stays zero |
| LegacyParticles.LegacyLifetime | src/ppe/index.ts:153-176 | after n legacy updates ticks has grown by min(n, CountBelow(endTicks − ticks)) |
| LegacyParticles.LegacyLiveAt | src/ppe/index.ts:157-159 | legacy update k finds the particle live exactly when k < CountBelow(endTicks − ticks) |
| LegacyParticles.Particle.Spawned | src/ppe/index.ts:117-132 | a new particle with the given position, numbers and shared colours, size 0, ticks 0 and no colour of its own |
| LegacyParticles.Particle.Update | src/ppe/index.ts:153-176 | the state takes one `Glide` (no drift); false exactly when past the end; a live particle takes three draws and its colour holds the unlimited sparkled blend of its phase |
| LegacyParticles.Particle.Advance | src/ppe/index.ts:154-175 | the numeric part of the legacy update: one `Glide` |
| LegacyParticles.Particle.Paint | src/ppe/index.ts:160-169 | three draws; the returned colour holds `Glow` of the phase without colour limiting |
| LegacyParticles.LiveMarks | src/ppe/index.ts:185 | one mark per particle, set exactly when the particle has a live update left in its lifetime: 0 < CountBelow(endTicks − ticks), the count `LegacyLifetime` and `LegacyLiveAt` use |
| LegacyParticles.ParticleList.constructor | src/ppe/index.ts:178 | `Particle.s` starts empty |
| LegacyParticles.ParticleList.Update | src/ppe/index.ts:180-191 | `Particle.s` keeps exactly the particles found live, in order; each takes one `Glide`; three draws per live particle; a list whose particles all have their three colours keeps that |
| LegacyParticles.AllColoredSpec | src/ppe/index.ts:130-132 | a list is `AllColored` exactly when every particle of it has its begin, middle and end colours set |
| LegacyParticles.SelectColored | src/ppe/index.ts:184-189 | the particles an update keeps are among those it started from, so a list of coloured particles stays coloured |
| LegacyParticles.ParticleList.ColoredReady | src/ppe/index.ts:160-169 | a list whose particles all have their three colours can take its next update |
| LegacyParticles.ParticleList.Sweep | src/ppe/index.ts:184-190 | the splicing loop leaves `Select` of the list by the live marks |
| LegacyParticles.ParticleList.UpdateAt | src/ppe/index.ts:185-189 | one pass of the loop: splice out exactly when found dead |
| LegacyParticles.ParticleList.Clear | src/ppe/index.ts:37 | `Particle.s` becomes empty |
| LegacyEmitters.NextParam | src/ppe/index.ts:322-324 | one legacy `getForParam`, as the n-th of the generator's draws from a state |
| LegacyEmitters.Emitter.constructor | src/ppe/index.ts:48-110 | the template is `Build` of the legacy row over the legacy generator's draws, in the main engine's order and with the hue from `get01` when absent; a recognised type gets three fresh, unlimited table colours, any other none |
| LegacyEmitters.Emitter.Draw | src/ppe/index.ts:50-109 | the constructor's draws: exactly `DrawCount` legacy steps |
| LegacyEmitters.Emitter.Tints | src/ppe/index.ts:58-87 | three fresh, distinct, unlimited colours of the palette |
| LegacyEmitters.Emitter.Jitter | src/ppe/index.ts:100-109 | the nine `getForParam` factors in the source's order; endTicks is the jittered middleTicks plus the span times its factor |
| LegacyEmitters.Emitter.Emit | src/ppe/index.ts:112-135 | `Particle.s` becomes its old list followed by `Spawns` fresh particles (none if count < 1 and count < the draw, else ceil(count)), each at (x, y) with ticks 0, five draws each, and the emitter's colours |
| LegacyEmitters.Emitter.Unchanged | src/ppe/index.ts:113-115 | an emit that spawns nothing leaves the list as it was |
| LegacyEmitters.Emitter.SpawnAll | src/ppe/index.ts:116-134 | the loop appends ceil(count) fresh particles and keeps the list free of duplicates |
| LegacyEmitters.Emitter.AppendOne | src/ppe/index.ts:133 | pushing one more made particle extends the appended run by one |
| LegacyEmitters.Emitter.Spawn | src/ppe/index.ts:117-132 | a fresh particle at (x, y), ticks 0, the jittered numbers of five draws and the emitter's colours |
| LegacyRegistry.SeedArgSettles | src/ppe/index.ts:298-301 | the value seeded with is never the sentinel: a redraw lands in [0, 0x7fffffff); otherwise it is seed + hash(name) |
| LegacyRegistry.CacheBuilt | src/ppe/index.ts:18 | caching one more built emitter keeps every cached emitter built |
| LegacyRegistry.Engine.constructor | src/ppe/index.ts:1-7 | scale ratio 1, no emitters, seed 0, empty `Particle.s` |
| LegacyRegistry.Engine.SetSeed | src/ppe/index.ts:31-33 | only the seed changes |
| LegacyRegistry.Engine.SeedFor | src/ppe/index.ts:16-17 | `new Random()` takes one draw; `setSeed(seed + hash)` takes a second exactly at the sentinel; the value seeded with is `SeedArg` |
| LegacyRegistry.Engine.NewEmitter | src/ppe/index.ts:16-18 | the uncached branch: `MakeDraws` ambient draws, and an emitter built from the state seeded with `SeedArg`, with the name's type code and the legacy options |
| LegacyRegistry.Engine.EmitterFor | src/ppe/index.ts:15-19 | a cached name keeps its emitter and takes no draw, whatever the arguments; an uncached one gets a fresh emitter built as `NewEmitter` says and `MakeDraws` draws; every cached emitter stays built |
| LegacyRegistry.Engine.Cache | src/ppe/index.ts:18 | `emitters[patternName] = …` adds one built emitter and keeps every cached emitter built |
| LegacyRegistry.Engine.Emit | src/ppe/index.ts:13-21 | a cached name keeps its emitter whatever the arguments; an uncached one gets a new emitter built from its origin; its particles are appended to `Particle.s`, starting at the draw after those the new emitter takes; every cached emitter stays built |
| LegacyRegistry.Engine.Update | src/ppe/index.ts:23-25 | `Particle.s` keeps exactly the particles found live, in order; each takes one `Glide`; three draws per live particle; a list whose particles all have their three colours keeps that |
| LegacyRegistry.Engine.Reset | src/ppe/index.ts:35-38 | no emitter is cached and `Particle.s` is empty |

## Left out

- Drawing: the canvas, `getContext`, `fillStyle`/`fillRect` and `getStyle`. The model draws nothing.
- `Math.cos`/`Math.sin`: the pair (cos a, sin a) is the parameter `heading: real -> Vector` of every update.
- Floating point: every number is a `real`. The generators' integer and bitwise code is exact (`bv32`), and JavaScript's int32 and uint32 conversions are written out.
- `Math.random`: an explicit stream of reals in [0,1) (`MathRandom`), consumed one value per call.
- The arithmetic of the legacy `Random.setSeed` (src/ppe/index.ts:302-305): it multiplies by 1812433253 in doubles beyond 2^53, so its int32 result depends on rounding. `LegacyRegistry.Engine.Emit` takes the state it produces as the parameter `seeding`. The sentinel redraw is modelled.
- `getInt`, `getPm` and `select` of the main `Random` (src/index.ts:415-429): the engine never calls them.
- `getParticles` of both modules and `ParticlePool.getParticles`: they only return the list, which the model keeps as a field.
- `setOptions`' `canvas` option and the legacy `options.canvas`: drawing only. The legacy engine's `options.scaleRatio` is a field that callers may write.
- `Registry.Engine.Emit`: `null` stands for an omitted pool. An explicit `null` passed while a default pool exists makes the source call `push` on `null`; that case is not modelled.
- Pattern names that are properties of `Object.prototype` (`"constructor"`, `"toString"`): the source's `{}` lookup finds an inherited value for them. The model's map has no such entries.
- Seeds that are not integers: the seed is an `int`.
- `Particles.Particle.Update`, `Particles.ParticlePool.Update`, `Registry.Engine.Update`: require the colours the update dereferences to be set (`CanUpdate`, `Ready`). With an unrecognised type code the source throws a TypeError there (src/index.ts:217-230). The model does not model the exception. Particles of a recognised type have all three colours (`AllColored`), which every update keeps and which gives `Ready` again (`ColoredReady`), so such pools can be updated any number of times.
- `LegacyParticles.Particle.Update`, `LegacyParticles.ParticleList.Update`, `LegacyRegistry.Engine.Update`: the same requirement, for the legacy update's dereferences (src/ppe/index.ts:160-169).
- `Particles.ParticlePool.Update`, `Registry.Engine.Update`: do not state the particles' `color` after the loop. Particles of one emitter share their colour objects and so their lerp and sparkle caches. Each particle's `color` then ends up referring to a shared cache that the last of them wrote.
- `LegacyParticles.ParticleList.Update`, `LegacyRegistry.Engine.Update`: the same, for `Particle.s`.
- `Particles.Particle.Update`, `Particles.ParticlePool.Update`, `Registry.Engine.Update`, `LegacyParticles.Particle.Update`, `LegacyParticles.ParticleList.Update`, `LegacyRegistry.Engine.Update`: may write any `Color`. In the source only the lerp and sparkle caches are written, never a table colour. Proving that needs an invariant that no cache is itself a table colour, so the model makes no promise about the table colours' channels after an update.
- `Templates.TypeCode`: `patternName[0]` is the first UTF-16 code unit. For a name that starts past U+FFFF that is a lone high surrogate, and the model takes the whole character. Neither is a recognised type, so both give the default row and the same template.
- `Hash.GetHashFromString`: pattern names that contain an unpaired surrogate are not representable. A JavaScript string is any sequence of 16-bit code units, and `charCodeAt` hashes a lone surrogate such as the first unit of "\uD800x" like any other unit (src/index.ts:380-389, src/ppe/index.ts:271-280). A Dafny `string` holds only Unicode scalar values, so neither this method nor the two registries, which take the name as a `string`, can receive such a name. `Hash.NameHash` takes any sequence of code units and so covers those hashes too.
- `Particles.Particle.Spawned`, `LegacyParticles.Particle.Spawned`: `new Particle()` followed by `emit`'s field writes is one constructor call. Nothing can observe the difference.
- `LegacyRegistry.Engine.Reset`: `Particle.s = []` replaces the array. A caller still holding the old array from `getParticles` keeps it; the model holds the list by value.

=== FILE: ambient.dfy ===
/** The engine's unseeded randomness (`Math.random`), made an explicit input:
    an infinite stream of reals in [0,1) of which every call consumes the next. */
module Ambient {

  class MathRandom {
    const stream: nat -> real
    var used: nat

    /** Every value `Math.random` can return lies in [0,1). */
    ghost predicate Valid() {
      forall i: nat :: 0.0 <= stream(i) < 1.0
    }

    constructor (stream: nat -> real)
      requires forall i: nat :: 0.0 <= stream(i) < 1.0
      ensures this.stream == stream && used == 0 && Valid()
    {
      this.stream := stream;
      used := 0;
    }

    /** One call of `Math.random()`. */
    method Next() returns (u: real)
      requires Valid()
      modifies this
      ensures used == old(used) + 1
      ensures u == stream(old(used)) && 0.0 <= u < 1.0
    {
      u := stream(used);
      used := used + 1;
    }
  }
}

=== FILE: colors.dfy ===
/** `Color` and `clamp` of both engine versions. The legacy `Color` of
    src/ppe/index.ts is this class with colour limiting switched off. */
module Colors {
  import opened Ambient

  /** The three channels of a colour. */
  datatype Rgb = Rgb(r: real, g: real, b: real)

  /** Distance between two reals. */
  function Dist(a: real, b: real): real {
    if a >= b then a - b else b - a
  }

  /** `clamp`: the point of [0,1] nearest to `v`. */
  function Clamp(v: real): (r: real)
    ensures 0.0 <= r <= 1.0
    ensures 0.0 <= v <= 1.0 ==> r == v
    ensures forall y :: 0.0 <= y <= 1.0 ==> Dist(r, v) <= Dist(y, v)
  {
    if v <= 0.0 then 0.0 else if v >= 1.0 then 1.0 else v
  }

  /** `limitColor`: three levels, each within a quarter of any value of [0,1] it stands for. */
  function LimitColor(v: real): (r: real)
    ensures r == 0.0 || r == 0.5 || r == 1.0
    ensures 0.0 <= v <= 1.0 ==> Dist(r, v) <= 0.25
  {
    if v < 0.25 then 0.0 else if v < 0.75 then 0.5 else 1.0
  }

  /** Quantising twice is quantising once. */
  lemma LimitColorIdempotent(v: real)
    ensures LimitColor(LimitColor(v)) == LimitColor(v)
  {
  }

  /** Quantising keeps the order of channel values. */
  lemma LimitColorMonotone(a: real, b: real)
    requires a <= b
    ensures LimitColor(a) <= LimitColor(b)
  {
  }

  /** The channel-wise quantisation of `limitRgb`. */
  function LimitedRgb(c: Rgb): Rgb {
    Rgb(LimitColor(c.r), LimitColor(c.g), LimitColor(c.b))
  }

  /** Index of the hue sector, `Math.floor(hue * 6)`. */
  function Sector(hue: real): int {
    (hue * 6.0).Floor
  }

  /** Position of the hue inside its sector, in [0,1). */
  function Frac(hue: real): (f: real)
    ensures 0.0 <= f < 1.0
  {
    hue * 6.0 - Sector(hue) as real
  }

  /** The channels the `Color` constructor computes: all channels start at
      `value`, and the hue sector scales two of them down; a hue outside
      [0,1) matches no sector and leaves a grey. */
  function HsvToRgb(hue: real, saturation: real, value: real): Rgb {
    SectorRgb(Sector(hue), value, value * (1.0 - saturation),
              value * (1.0 - saturation * Frac(hue)), value * (1.0 - saturation * (1.0 - Frac(hue))))
  }

  /** The case table of the constructor: in sector i, which channel keeps the
      value v, which gets the floor p, and which the falling (q) or rising (t) level. */
  function SectorRgb(i: int, v: real, p: real, q: real, t: real): Rgb {
    match i
    case 0 => Rgb(v, t, p)
    case 1 => Rgb(q, v, p)
    case 2 => Rgb(p, v, t)
    case 3 => Rgb(p, q, v)
    case 4 => Rgb(t, p, v)
    case 5 => Rgb(v, p, q)
    case _ => Rgb(v, v, v)
  }

  /** The constructor's colour, quantised when colour limiting is on. */
  function Shade(hue: real, saturation: real, value: real, limiting: bool): Rgb {
    var c := HsvToRgb(hue, saturation, value);
    if limiting then LimitedRgb(c) else c
  }

  function Max3(c: Rgb): real {
    if c.r >= c.g && c.r >= c.b then c.r else if c.g >= c.b then c.g else c.b
  }

  function Min3(c: Rgb): real {
    if c.r <= c.g && c.r <= c.b then c.r else if c.g <= c.b then c.g else c.b
  }

  /** Scaling `v` by a factor 1 - s*q with s, q in [0,1] keeps it between v(1-s) and v. */
  lemma Attenuate(v: real, s: real, q: real)
    requires 0.0 <= v && 0.0 <= s <= 1.0 && 0.0 <= q <= 1.0
    ensures v * (1.0 - s) <= v * (1.0 - s * q) <= v
    ensures 0.0 <= v * (1.0 - s)
  {
    assert s * q <= s * 1.0;
    assert 0.0 <= s * q;
    assert v * (s * q) <= v * s;
    assert 0.0 <= v * (s * q);
    assert v * s <= v * 1.0;
  }

  /** For a saturation and value in [0,1], every channel lies in [0, value], whatever the hue. */
  lemma {:induction false} HsvBounds(hue: real, saturation: real, value: real)
    requires 0.0 <= saturation <= 1.0 && 0.0 <= value <= 1.0
    ensures var c := HsvToRgb(hue, saturation, value);
      0.0 <= c.r <= value && 0.0 <= c.g <= value && 0.0 <= c.b <= value
  {
    SectorLevels(Sector(hue), value, saturation, Frac(hue));
  }

  /** The sector table is the standard HSV conversion: for a hue in [0,1) the
      largest channel is `value` and the smallest is value*(1 - saturation). */
  lemma {:induction false} HsvExtremes(hue: real, saturation: real, value: real)
    requires 0.0 <= hue < 1.0
    requires 0.0 <= saturation <= 1.0 && 0.0 <= value <= 1.0
    ensures Max3(HsvToRgb(hue, saturation, value)) == value
    ensures Min3(HsvToRgb(hue, saturation, value)) == value * (1.0 - saturation)
  {
    assert 0 <= Sector(hue) < 6;
    SectorLevels(Sector(hue), value, saturation, Frac(hue));
  }

  /** The four levels of a sector, for a position f in [0,1] of the hue in it,
      are ordered as `SectorOrder` needs. */
  lemma SectorLevels(i: int, v: real, s: real, f: real)
    requires 0.0 <= s <= 1.0 && 0.0 <= v <= 1.0 && 0.0 <= f <= 1.0
    ensures var c := SectorRgb(i, v, v * (1.0 - s), v * (1.0 - s * f), v * (1.0 - s * (1.0 - f)));
      0.0 <= c.r <= v && 0.0 <= c.g <= v && 0.0 <= c.b <= v
    ensures 0 <= i < 6 ==> Max3(SectorRgb(i, v, v * (1.0 - s), v * (1.0 - s * f), v * (1.0 - s * (1.0 - f)))) == v
    ensures 0 <= i < 6 ==> Min3(SectorRgb(i, v, v * (1.0 - s), v * (1.0 - s * f), v * (1.0 - s * (1.0 - f)))) == v * (1.0 - s)
  {
    var p, q, t := v * (1.0 - s), v * (1.0 - s * f), v * (1.0 - s * (1.0 - f));
    Attenuate(v, s, f);
    Attenuate(v, s, 1.0 - f);
    SectorOrder(i, v, p, q, t);
  }

  /** With the levels ordered 0 <= p <= q, t <= v, a sector in 0..5 has v on
      top and p at the bottom, and every sector keeps the channels in [0, v]. */
  lemma SectorOrder(i: int, v: real, p: real, q: real, t: real)
    requires 0.0 <= p <= q <= v && p <= t <= v
    ensures var c := SectorRgb(i, v, p, q, t);
      0.0 <= c.r <= v && 0.0 <= c.g <= v && 0.0 <= c.b <= v
    ensures 0 <= i < 6 ==> Max3(SectorRgb(i, v, p, q, t)) == v && Min3(SectorRgb(i, v, p, q, t)) == p
  {
  }

  /** A hue outside [0,1) (which the legacy generator can draw) gives a grey of level `value`. */
  lemma HsvGrey(hue: real, saturation: real, value: real)
    requires hue < 0.0 || 1.0 <= hue
    ensures HsvToRgb(hue, saturation, value) == Rgb(value, value, value)
  {
  }

  /** The blend of `getLerped`: `a` at t = 0, `b` at t = 1, in between for t in [0,1]. */
  function Lerp(a: real, b: real, t: real): (r: real)
    ensures t == 0.0 ==> r == a
    ensures t == 1.0 ==> r == b
    ensures 0.0 <= t <= 1.0 && a <= b ==> a <= r <= b
    ensures 0.0 <= t <= 1.0 && b <= a ==> b <= r <= a
  {
    if 0.0 <= t <= 1.0 then
      Between(a, b, t);
      a * (1.0 - t) + b * t
    else
      a * (1.0 - t) + b * t
  }

  lemma Between(a: real, b: real, t: real)
    requires 0.0 <= t <= 1.0
    ensures a <= b ==> a <= a * (1.0 - t) + b * t <= b
    ensures b <= a ==> b <= a * (1.0 - t) + b * t <= a
  {
    var d := b - a;
    assert a * (1.0 - t) + b * t == a + d * t;
    assert d - d * t == d * (1.0 - t);
    if a <= b {
      NonNegProduct(d, t);
      NonNegProduct(d, 1.0 - t);
    } else {
      NonNegProduct(-d, t);
      NonNegProduct(-d, 1.0 - t);
    }
  }

  lemma NonNegProduct(x: real, y: real)
    requires 0.0 <= x && 0.0 <= y
    ensures 0.0 <= x * y
  {
  }

  /** Clamping never moves a value away from a point of [0,1]. */
  lemma ClampCloser(x: real, c: real)
    requires 0.0 <= c <= 1.0
    ensures Dist(Clamp(x), c) <= Dist(x, c)
  {
  }

  /** The channels `getLerped` writes into its cache. */
  function LerpRgb(a: Rgb, b: Rgb, t: real, limiting: bool): Rgb {
    var c := Rgb(Lerp(a.r, b.r, t), Lerp(a.g, b.g, t), Lerp(a.b, b.b, t));
    if limiting then LimitedRgb(c) else c
  }

  /** One channel of `getSparkled`: `c` moved by up to `ratio` either way, then clamped. */
  function SparkleChannel(c: real, ratio: real, u: real): (r: real)
    ensures 0.0 <= r <= 1.0
    ensures 0.0 <= c <= 1.0 && 0.0 <= u <= 1.0 ==> Dist(r, c) <= Dist(ratio, 0.0)
  {
    if 0.0 <= c <= 1.0 && 0.0 <= u <= 1.0 then
      SparkleNear(c, ratio, u);
      Clamp(c + ratio * (u * 2.0 - 1.0))
    else
      Clamp(c + ratio * (u * 2.0 - 1.0))
  }

  lemma SparkleNear(c: real, ratio: real, u: real)
    requires 0.0 <= c <= 1.0 && 0.0 <= u <= 1.0
    ensures Dist(Clamp(c + ratio * (u * 2.0 - 1.0)), c) <= Dist(ratio, 0.0)
  {
    var d := ratio * (u * 2.0 - 1.0);
    Jitter(ratio, u * 2.0 - 1.0);
    ClampCloser(c + d, c);
    assert Dist(c + d, c) == Dist(d, 0.0);
  }

  lemma Jitter(ratio: real, e: real)
    requires -1.0 <= e <= 1.0
    ensures Dist(ratio * e, 0.0) <= Dist(ratio, 0.0)
  {
    if ratio >= 0.0 {
      if e >= 0.0 {
        assert ratio * e <= ratio * 1.0;
      } else {
        assert ratio * e >= ratio * -1.0;
      }
    } else {
      if e >= 0.0 {
        assert ratio * e >= ratio * 1.0;
      } else {
        assert ratio * e <= ratio * -1.0;
      }
    }
  }

  /** The channels `getSparkled` writes into its cache from three draws. */
  function SparkleRgb(c: Rgb, ratio: real, u1: real, u2: real, u3: real, limiting: bool): Rgb {
    var s := Rgb(SparkleChannel(c.r, ratio, u1), SparkleChannel(c.g, ratio, u2), SparkleChannel(c.b, ratio, u3));
    if limiting then LimitedRgb(s) else s
  }

  /** Sparkling keeps every channel in [0,1], also after quantisation. */
  lemma SparkleInRange(c: Rgb, ratio: real, u1: real, u2: real, u3: real, limiting: bool)
    ensures var s := SparkleRgb(c, ratio, u1, u2, u3, limiting);
      0.0 <= s.r <= 1.0 && 0.0 <= s.g <= 1.0 && 0.0 <= s.b <= 1.0
  {
  }

  class Color {
    var r: real
    var g: real
    var b: real
    var hue: real
    var saturation: real
    var value: real
    var sparkleRatio: real
    var sparkled: Color?
    var lerped: Color?

    function Channels(): Rgb
      reads this
    {
      Rgb(r, g, b)
    }

    /** `new Color(hue, saturation, value, sparkleRatio)` while colour limiting is `limiting`. */
    constructor (hue: real, saturation: real, value: real, sparkleRatio: real, limiting: bool)
      ensures Channels() == Shade(hue, saturation, value, limiting)
      ensures this.hue == hue && this.saturation == saturation && this.value == value
      ensures this.sparkleRatio == sparkleRatio
      ensures sparkled == null && lerped == null
    {
      this.hue := hue;
      this.saturation := saturation;
      this.value := value;
      this.sparkleRatio := sparkleRatio;
      var c := HsvToRgb(hue, saturation, value);
      r, g, b := c.r, c.g, c.b;
      sparkled, lerped := null, null;
      new;
      if limiting {
        LimitRgb();
      }
    }

    /** `limitRgb`: quantises the three channels in place. */
    method LimitRgb()
      modifies this
      ensures Channels() == LimitedRgb(old(Channels()))
      ensures hue == old(hue) && saturation == old(saturation) && value == old(value)
      ensures sparkleRatio == old(sparkleRatio) && sparkled == old(sparkled) && lerped == old(lerped)
    {
      r := LimitColor(r);
      g := LimitColor(g);
      b := LimitColor(b);
    }

    /** `getLerped`: blends towards `other` into the one cached colour of this
        colour (allocated on first use, a red `new Color()`) and returns it. */
    method GetLerped(other: Color, ratio: real, limiting: bool) returns (c: Color)
      modifies this`lerped, lerped
      ensures c == lerped
      ensures old(lerped) == null ==> fresh(c) && c.sparkled == null
      ensures old(lerped) != null ==> c == old(lerped) && c.sparkled == old(lerped.sparkled) && c.lerped == old(lerped.lerped)
      ensures c.Channels() == LerpRgb(old(Channels()), old(other.Channels()), ratio, limiting)
      ensures c.sparkleRatio == Lerp(old(sparkleRatio), old(other.sparkleRatio), ratio)
    {
      var blend := Rgb(Lerp(r, other.r, ratio), Lerp(g, other.g, ratio), Lerp(b, other.b, ratio));
      var ratioNext := Lerp(sparkleRatio, other.sparkleRatio, ratio);
      if lerped == null {
        lerped := new Color(0.0, 1.0, 1.0, 0.0, limiting);
      }
      c := lerped;
      c.r, c.g, c.b := blend.r, blend.g, blend.b;
      c.sparkleRatio := ratioNext;
      if limiting {
        c.LimitRgb();
      }
    }

    /** `getSparkled`: jitters each channel by this colour's sparkle ratio
        (three `Math.random` draws, in r, g, b order) into the one cached
        sparkled colour and returns it. */
    method GetSparkled(limiting: bool, rng: MathRandom) returns (c: Color)
      requires rng.Valid()
      modifies this`sparkled, sparkled, rng
      ensures c == sparkled
      ensures old(sparkled) == null ==> fresh(c)
      ensures old(sparkled) != null ==>
                c == old(sparkled) && c.sparkleRatio == old(sparkled.sparkleRatio)
                && c.sparkled == old(sparkled.sparkled) && c.lerped == old(sparkled.lerped)
      ensures rng.used == old(rng.used) + 3
      ensures c.Channels() == SparkleRgb(old(Channels()), old(sparkleRatio), rng.stream(old(rng.used)),
                                         rng.stream(old(rng.used) + 1), rng.stream(old(rng.used) + 2), limiting)
    {
      var src := Channels();
      var ratio := sparkleRatio;
      if sparkled == null {
        sparkled := new Color(0.0, 1.0, 1.0, 0.0, limiting);
      }
      c := sparkled;
      var u1 := rng.Next();
      c.r := SparkleChannel(src.r, ratio, u1);
      var u2 := rng.Next();
      c.g := SparkleChannel(src.g, ratio, u2);
      var u3 := rng.Next();
      c.b := SparkleChannel(src.b, ratio, u3);
      if limiting {
        c.LimitRgb();
      }
    }
  }
}

=== FILE: emitters.dfy ===
/** `Emitter` of src/index.ts: a template fixed at construction from the
    seeded generator, and `emit`, which appends jittered copies of it to a pool. */
module Emitters {
  import opened Util
  import opened Ambient
  import opened Prng
  import opened Colors
  import opened Lifecycle
  import opened Templates
  import opened Particles

  /** `c` is a fresh table colour: `new Color(hue, saturation, value, sparkleRatio)`. */
  ghost predicate Tinted(c: Color?, h: Hsv, hue: real, limiting: bool)
    reads c
  {
    c != null && c.Channels() == Shade(hue, h.saturation, h.value, limiting)
    && c.hue == hue && c.saturation == h.saturation && c.value == h.value
    && c.sparkleRatio == h.sparkleRatio && c.sparkled == null && c.lerped == null
  }

  /** The five `Math.random` draws of the `j`-th particle of an emit whose
      first particle draw is `stream(start)`. */
  function DrawsAt(stream: nat -> real, start: nat, j: nat): SpawnDraws {
    var b := start + 5 * j;
    SpawnDraws(stream(b), stream(b + 1), stream(b + 2), stream(b + 3), stream(b + 4))
  }

  /** One `getForParam` on the generator, as the `n`-th of the draws `Units(s0, total)`. */
  method NextParam(random: Random, ghost s0: State, ghost n: nat, ghost total: nat) returns (r: real)
    requires random.Words() == Advance(s0, n) && n < total
    modifies random
    ensures random.Words() == Advance(s0, n + 1)
    ensures r == Param(Units(s0, total)[n])
  {
    r := random.GetForParam();
  }

  /** What an emitter is made from: the pattern's type code, the emit
      options, the engine's scale ratio and the generator's state. */
  datatype Origin = Origin(code: Option<char>, options: EmitOptions, scaleRatio: real, start: State)

  class Emitter {
    const template: Template
    const beginColor: Color?
    const middleColor: Color?
    const endColor: Color?
    /** The hue the table colours were made with (a constructor local in the source). */
    ghost const hue: real
    /** The constructor's arguments, with the generator's state on entry. */
    ghost const origin: Origin

    /** The emitter's row of the type table of src/index.ts (middle colour value 0.9). */
    static function RowOf(patternType: Option<char>): Row {
      TypeRow(patternType, 0.9)
    }

    /** The template, hue and colour references are the ones the origin
        determines: `Build` of the type's row over the `DrawCount` draws that
        follow the origin's generator state, and table colours exactly for a
        recognised type. */
    ghost predicate Built() {
      var row := RowOf(origin.code);
      var us := Units(origin.start, DrawCount(row.spread, origin.options.hue));
      template == Build(row, origin.options, origin.scaleRatio, us)
      && hue == HueOf(origin.options.hue, us)
      && (row.palette.None? ==> beginColor == null && middleColor == null && endColor == null)
      && (row.palette.Some? ==> beginColor != null && middleColor != null && endColor != null)
    }

    /** `new Emitter(patternType, emitOptions, random)` with the engine's
        `scaleRatio` and `isLimitingColors`: the template is `Build` of the
        type's row over the generator's next draws, which it consumes in
        the source's order; a recognised type gets three fresh table colours
        of the emitter's hue, any other none. */
    constructor (patternType: Option<char>, o: EmitOptions, random: Random, scaleRatio: real, limiting: bool)
      modifies random
      ensures var total := DrawCount(RowOf(patternType).spread, o.hue);
              var us := Units(old(random.Words()), total);
              template == Build(RowOf(patternType), o, scaleRatio, us)
              && hue == HueOf(o.hue, us)
              && random.Words() == Advance(old(random.Words()), total)
      ensures origin == Origin(patternType, o, scaleRatio, old(random.Words()))
      ensures Built()
      ensures RowOf(patternType).palette.None? ==> beginColor == null && middleColor == null && endColor == null
      ensures RowOf(patternType).palette.Some? ==>
                var p := RowOf(patternType).palette.value;
                Tinted(beginColor, p.begin, hue, limiting) && Tinted(middleColor, p.middle, hue, limiting)
                && Tinted(endColor, p.end, hue, limiting)
                && fresh(beginColor) && fresh(middleColor) && fresh(endColor)
                && beginColor != middleColor && middleColor != endColor && beginColor != endColor
    {
      origin := Origin(patternType, o, scaleRatio, random.Words());
      var row := RowOf(patternType);
      var h, t := Draw(row, o, scaleRatio, random);
      var b, m, e: Color? := null, null, null;
      if row.palette.Some? {
        b, m, e := Tints(row.palette.value, h, limiting);
      }
      template := t;
      beginColor, middleColor, endColor := b, m, e;
      hue := h;
    }

    /** The constructor's draws on the generator: the hue unless the option
        gives one, the angle factor if the row jitters its angle, then the
        nine factors of `Jitter`. No colour is drawn, so making the colours
        after the hue (as the source does) or after all draws is the same. */
    static method Draw(row: Row, o: EmitOptions, scaleRatio: real, random: Random) returns (h: real, t: Template)
      modifies random
      ensures var total := DrawCount(row.spread, o.hue);
              var us := Units(old(random.Words()), total);
              t == Build(row, o, scaleRatio, us) && h == HueOf(o.hue, us)
              && random.Words() == Advance(old(random.Words()), total)
    {
      ghost var s0 := random.Words();
      ghost var total := DrawCount(row.spread, o.hue);
      ghost var us := Units(s0, total);
      if o.hue.None? {
        h := random.Get(1.0, None);
      } else {
        h := o.hue.value;
      }
      ghost var n: nat := if o.hue.None? then 1 else 0;
      var angleDeflection: real;
      match row.spread {
        case Fixed(w) =>
          angleDeflection := w;
        case Jittered(f) =>
          var r := NextParam(random, s0, n, total);
          angleDeflection := Swing(f, r);
          n := n + 1;
      }
      assert n + 9 == total && n == Lead(row.spread, o.hue);
      assert angleDeflection == Width(row.spread, us, n);
      t := Jitter(row, o, scaleRatio, angleDeflection, random, s0, n);
    }

    /** The three table colours of a recognised type, all of hue `h`. */
    static method Tints(p: Palette, h: real, limiting: bool) returns (b: Color, m: Color, e: Color)
      ensures Tinted(b, p.begin, h, limiting) && Tinted(m, p.middle, h, limiting) && Tinted(e, p.end, h, limiting)
      ensures fresh(b) && fresh(m) && fresh(e) && b != m && m != e && b != e
    {
      b := new Color(h, p.begin.saturation, p.begin.value, p.begin.sparkleRatio, limiting);
      m := new Color(h, p.middle.saturation, p.middle.value, p.middle.sparkleRatio, limiting);
      e := new Color(h, p.end.saturation, p.end.value, p.end.sparkleRatio, limiting);
    }

    /** The rest of the constructor after the angle deflection: the nine
        `getForParam` draws in the order the source multiplies them into
        speed, slowdown ratio, target size, middle ticks, the middle-to-end
        span, the three deflections and the count; `Fill` applies them
        together with the overrides and the scaling. */
    static method Jitter(row: Row, o: EmitOptions, scaleRatio: real, angleDeflection: real, random: Random,
                         ghost s0: State, ghost n: nat) returns (t: Template)
      requires random.Words() == Advance(s0, n)
      modifies random
      ensures random.Words() == Advance(s0, n + 9)
      ensures t == Fill(row, o, scaleRatio, angleDeflection, FactorsAt(Units(s0, n + 9), n))
    {
      ghost var total := n + 9;
      var r0 := NextParam(random, s0, n, total);
      var r1 := NextParam(random, s0, n + 1, total);
      var r2 := NextParam(random, s0, n + 2, total);
      var r3 := NextParam(random, s0, n + 3, total);
      var r4 := NextParam(random, s0, n + 4, total);
      var r5 := NextParam(random, s0, n + 5, total);
      var r6 := NextParam(random, s0, n + 6, total);
      var r7 := NextParam(random, s0, n + 7, total);
      var r8 := NextParam(random, s0, n + 8, total);
      var f := Factors(r0, r1, r2, r3, r4, r5, r6, r7, r8);
      t := Fill(row, o, scaleRatio, angleDeflection, f);
      assert FactorsAt(Units(s0, total), n) == Factors(r0, r1, r2, r3, r4, r5, r6, r7, r8);
    }

    /** `p` is the particle `emit(x, y, angle, velX, velY)` makes from the
        draws `d`: at (x, y) with velocity (velX, velY), `SpawnBody` of the
        template, alive, with no colour of its own and this emitter's colours. */
    ghost predicate Made(p: Particle, x: real, y: real, angle: real, velX: real, velY: real, d: SpawnDraws)
      reads p
    {
      p.color == null
      && p.beginColor == beginColor && p.middleColor == middleColor && p.endColor == endColor
      && p.State() == Flight(SpawnBody(template, x, y, angle, d), Vector(velX, velY), true)
    }

    /** The draws `emit` takes before its particles: one when the count is below 1. */
    function LeadDraws(): nat {
      if template.count < 1.0 then 1 else 0
    }

    /** How many particles an `emit` whose first draw is `u` spawns. */
    function Spawns(u: real): nat {
      SpawnCount(template.count, u)
    }

    /** `ps` is `before` followed by the particles of an `emit(x, y, angle,
        velX, velY)` whose first draw is `stream(u0)`: the j-th new one `Made`
        from the j-th five draws after the lead. */
    ghost predicate Spawned(ps: seq<Particle>, before: seq<Particle>, x: real, y: real, angle: real,
                            velX: real, velY: real, stream: nat -> real, u0: nat)
      reads ps
    {
      Appended(ps, before, x, y, angle, velX, velY, stream, u0 + LeadDraws(), Spawns(stream(u0)))
    }

    /** `ps` is `before` followed by `n` particles, the j-th `Made` from the
        five draws from `stream(start + 5 * j)` on. */
    ghost predicate Appended(ps: seq<Particle>, before: seq<Particle>, x: real, y: real, angle: real,
                             velX: real, velY: real, stream: nat -> real, start: nat, n: nat)
      reads ps
    {
      |ps| == |before| + n && ps[..|before|] == before
      && forall k :: |before| <= k < |ps| ==>
           Made(ps[k], x, y, angle, velX, velY, DrawsAt(stream, start, k - |before|))
    }

    /** `emit(x, y, angle, velX, velY, pool)`: when the count is below 1 one
        draw decides whether to spawn at all; then `Spawns` fresh particles
        are appended to the pool (`Spawned`), five draws each. Earlier
        entries stay as they were. */
    method Emit(x: real, y: real, angle: real, velX: real, velY: real, pool: ParticlePool, rng: MathRandom)
      requires pool.Valid() && rng.Valid()
      modifies pool, rng
      ensures pool.Valid() && rng.Valid()
      ensures Spawned(pool.particles, old(pool.particles), x, y, angle, velX, velY, rng.stream, old(rng.used))
      ensures rng.used == old(rng.used) + LeadDraws() + 5 * Spawns(rng.stream(old(rng.used)))
      ensures forall k :: |old(pool.particles)| <= k < |pool.particles| ==> fresh(pool.particles[k])
    {
      ghost var u0 := rng.used;
      if template.count < 1.0 {
        var u := rng.Next();
        if template.count < u {
          assert LeadDraws() == 1 && Spawns(rng.stream(u0)) == 0;
          Unchanged(pool.particles, x, y, angle, velX, velY, rng.stream, u0 + 1);
          return;
        }
      }
      assert rng.used == u0 + LeadDraws() && Spawns(rng.stream(u0)) == CountBelow(template.count);
      SpawnAll(x, y, angle, velX, velY, pool, rng);
    }

    /** An emit that spawns nothing leaves the list as it was. */
    lemma Unchanged(ps: seq<Particle>, x: real, y: real, angle: real, velX: real, velY: real, stream: nat -> real, start: nat)
      ensures Appended(ps, ps, x, y, angle, velX, velY, stream, start, 0)
    {
      assert ps[..|ps|] == ps;
    }

    /** `emit`'s loop: `CountBelow(count)` particles, five draws each. */
    method SpawnAll(x: real, y: real, angle: real, velX: real, velY: real, pool: ParticlePool, rng: MathRandom)
      requires pool.Valid() && rng.Valid()
      modifies pool, rng
      ensures pool.Valid() && rng.Valid()
      ensures Appended(pool.particles, old(pool.particles), x, y, angle, velX, velY, rng.stream, old(rng.used),
                       CountBelow(template.count))
      ensures rng.used == old(rng.used) + 5 * CountBelow(template.count)
      ensures forall k :: |old(pool.particles)| <= k < |pool.particles| ==> fresh(pool.particles[k])
    {
      ghost var start := rng.used;
      ghost var n := CountBelow(template.count);
      var i := 0;
      while (i as real) < template.count
        invariant 0 <= i <= n
        invariant Appended(pool.particles, old(pool.particles), x, y, angle, velX, velY, rng.stream, start, i)
        invariant NoDup(pool.particles)
        invariant rng.used == start + 5 * i && rng.Valid()
        invariant forall k :: |old(pool.particles)| <= k < |pool.particles| ==> fresh(pool.particles[k])
        decreases n - i
      {
        CountBelowSpec(template.count, i);
        var p := Spawn(x, y, angle, velX, velY, rng);
        AppendOne(pool.particles, old(pool.particles), x, y, angle, velX, velY, rng.stream, start, i, p);
        pool.particles := pool.particles + [p];
        i := i + 1;
      }
      CountBelowSpec(template.count, i);
    }

    /** One more particle, made from the next five draws. */
    lemma AppendOne(ps: seq<Particle>, before: seq<Particle>, x: real, y: real, angle: real,
                    velX: real, velY: real, stream: nat -> real, start: nat, n: nat, p: Particle)
      requires Appended(ps, before, x, y, angle, velX, velY, stream, start, n)
      requires Made(p, x, y, angle, velX, velY, DrawsAt(stream, start + 5 * n, 0))
      ensures Appended(ps + [p], before, x, y, angle, velX, velY, stream, start, n + 1)
    {
      var qs := ps + [p];
      assert qs[..|before|] == ps[..|before|];
      assert DrawsAt(stream, start + 5 * n, 0) == DrawsAt(stream, start, n);
    }

    /** The body of `emit`'s loop: a new particle from five draws. */
    method Spawn(x: real, y: real, angle: real, velX: real, velY: real, rng: MathRandom) returns (p: Particle)
      requires rng.Valid()
      modifies rng
      ensures fresh(p) && rng.Valid()
      ensures rng.used == old(rng.used) + 5
      ensures Made(p, x, y, angle, velX, velY, DrawsAt(rng.stream, old(rng.used), 0))
    {
      var u := rng.Next();
      var a := angle + (u - 0.5) * template.angleDeflection;
      u := rng.Next();
      var speed := template.speed * Deflected(u, template.speedDeflection);
      u := rng.Next();
      var targetSize := template.targetSize * Deflected(u, template.sizeDeflection);
      u := rng.Next();
      var middleTicks := template.middleTicks * Deflected(u, template.ticksDeflection);
      u := rng.Next();
      var endTicks := template.endTicks * Deflected(u, template.ticksDeflection);
      p := new Particle.Spawned(Vector(x, y), Vector(velX, velY), a, speed, template.slowdownRatio,
                                targetSize, middleTicks, endTicks, beginColor, middleColor, endColor);
    }
  }
}

=== FILE: hash.dfy ===
/** `getHashFromString` of both engine versions (src/index.ts and
    src/ppe/index.ts carry the same code), and the 32-bit integer wrapping
    that JavaScript's bitwise operators apply to numbers. */
module Hash {

  const TWO31: int := 0x8000_0000
  const TWO32: int := 0x1_0000_0000

  /** JavaScript's ToInt32: the integer congruent to `v` modulo 2^32 in [-2^31, 2^31). */
  function ToInt32(v: int): (r: int)
    ensures -TWO31 <= r < TWO31
  {
    (v + TWO31) % TWO32 - TWO31
  }

  /** JavaScript's ToUint32 (`v >>> 0`), as a 32-bit word. */
  function ToUint32(v: int): bv32 {
    (v % TWO32) as bv32
  }

  /** ToInt32 only moves its argument by a multiple of 2^32 ... */
  lemma ToInt32Shift(v: int) returns (k: int)
    ensures ToInt32(v) == v + k * TWO32
  {
    k := -((v + TWO31) / TWO32);
  }

  /** ... and so does not see multiples of 2^32. */
  lemma ToInt32Periodic(v: int, k: int)
    ensures ToInt32(v + k * TWO32) == ToInt32(v)
  {
    var a := v + TWO31;
    assert (a + k * TWO32) % TWO32 == a % TWO32 by {
      var q := (a + k * TWO32) / TWO32;
      var q' := a / TWO32;
      assert a + k * TWO32 == q * TWO32 + (a + k * TWO32) % TWO32;
      assert a == q' * TWO32 + a % TWO32;
    }
  }

  /** A UTF-16 code unit, what `charCodeAt` returns. */
  type CodeUnit = u: int | 0 <= u < 0x1_0000

  /** The UTF-16 encoding of one character: itself below U+10000, else the
      surrogate pair of the offset v = c - 0x10000 (high 0xD800 + v / 0x400,
      low 0xDC00 + v % 0x400). */
  function Encode(c: char): (us: seq<CodeUnit>)
    ensures |us| == (if c as int < 0x1_0000 then 1 else 2)
  {
    var v := c as int;
    if v < 0x1_0000 then [v] else [0xD800 + (v - 0x1_0000) / 0x400, 0xDC00 + (v - 0x1_0000) % 0x400]
  }

  /** A surrogate pair is a high surrogate then a low one, and gives the
      character back. */
  lemma EncodePair(c: char)
    requires c as int >= 0x1_0000
    ensures var hi: int, lo: int := Encode(c)[0], Encode(c)[1];
            0xD800 <= hi < 0xDC00 && 0xDC00 <= lo < 0xE000
            && 0x1_0000 + (hi - 0xD800) * 0x400 + (lo - 0xDC00) == c as int
  {
    var v := c as int - 0x1_0000;
    assert v == (v / 0x400) * 0x400 + v % 0x400;
  }

  /** A character below U+10000 is its own code unit, and is never a surrogate,
      so a decoder tells the two cases apart by the first unit. */
  lemma EncodeSingle(c: char)
    requires c as int < 0x1_0000
    ensures Encode(c) == [c as int] && !(0xD800 <= c as int < 0xE000)
  {
  }

  /** The string as JavaScript holds it: the UTF-16 code units of its
      characters, in order; `length` and `charCodeAt` see these. */
  function Utf16(s: string): (us: seq<CodeUnit>)
    ensures |us| >= |s|
  {
    if s == [] then [] else Utf16(s[..|s| - 1]) + Encode(s[|s| - 1])
  }

  /** The code units of a concatenation are those of its parts, one after the other. */
  lemma {:induction false} Utf16Concat(s: string, t: string)
    ensures Utf16(s + t) == Utf16(s) + Utf16(t)
  {
    if t == [] {
      assert s + t == s;
    } else {
      Utf16Concat(s, t[..|t| - 1]);
      assert (s + t)[..|s + t| - 1] == s + t[..|t| - 1];
    }
  }

  /** A string with no character past U+FFFF has one code unit per character,
      equal to the character's value. */
  lemma {:induction false} Utf16Narrow(s: string)
    requires forall i :: 0 <= i < |s| ==> s[i] as int < 0x1_0000
    ensures |Utf16(s)| == |s|
    ensures forall i :: 0 <= i < |s| ==> Utf16(s)[i] == s[i] as int
  {
    if s != [] {
      Utf16Narrow(s[..|s| - 1]);
    }
  }

  /** U+1F600 (an emoji) is the two code units 0xD83D 0xDE00. */
  lemma Utf16Emoji()
    ensures Utf16([0x1F600 as char]) == [0xD83D, 0xDE00]
  {
    assert [0x1F600 as char][..0] == [];
  }

  /** The rolling hash h := h*31 + code unit, over unbounded integers, from h = 0. */
  function Rolling(us: seq<CodeUnit>): int {
    if us == [] then 0 else Rolling(us[..|us| - 1]) * 31 + us[|us| - 1]
  }

  /** One loop step of the source, `hash = (hash << 5) - hash + chr; hash |= 0`,
      wraps the same value as one step of the unbounded rolling hash. */
  lemma {:induction false} HashStep(a: int, c: int)
    ensures ToInt32(ToInt32(ToInt32(a) * 32) - ToInt32(a) + c) == ToInt32(a * 31 + c)
  {
    var h := ToInt32(a);
    var k1 := ToInt32Shift(a);
    var k2 := ToInt32Shift(h * 32);
    calc {
      ToInt32(ToInt32(h * 32) - h + c);
      { assert ToInt32(h * 32) - h + c == (a * 31 + c) + (31 * k1 + k2) * TWO32; }
      ToInt32((a * 31 + c) + (31 * k1 + k2) * TWO32);
      { ToInt32Periodic(a * 31 + c, 31 * k1 + k2); }
      ToInt32(a * 31 + c);
    }
  }

  /** The value `getHashFromString`'s loop holds after each prefix of the
      code units `us`: h := ToInt32(h*31 + code unit), wrapped at every step,
      from h = 0. */
  function NameHash(us: seq<CodeUnit>): (h: int)
    ensures -TWO31 <= h < TWO31
  {
    if us == [] then 0 else ToInt32(NameHash(us[..|us| - 1]) * 31 + us[|us| - 1])
  }

  /** Wrapping at every step or once at the end gives the same hash. */
  lemma {:induction false} NameHashRolling(us: seq<CodeUnit>)
    ensures NameHash(us) == ToInt32(Rolling(us))
  {
    if us != [] {
      var p, c := us[..|us| - 1], us[|us| - 1];
      NameHashRolling(p);
      var k := ToInt32Shift(Rolling(p));
      assert NameHash(p) * 31 + c == (Rolling(p) * 31 + c) + (31 * k) * TWO32;
      ToInt32Periodic(Rolling(p) * 31 + c, 31 * k);
    }
  }

  /** An int32 value is its own ToInt32. */
  lemma ToInt32Fixed(v: int)
    requires -TWO31 <= v < TWO31
    ensures ToInt32(v) == v
  {
  }

  /** `getHashFromString`: the int32 rolling hash of the string's UTF-16 code
      units (so "" hashes to 0). */
  method GetHashFromString(str: string) returns (hash: int)
    ensures hash == NameHash(Utf16(str))
    ensures hash == ToInt32(Rolling(Utf16(str)))
  {
    var units := Utf16(str);
    hash := 0;
    var i := 0;
    while i < |units|
      invariant 0 <= i <= |units|
      invariant hash == NameHash(units[..i])
    {
      var chr := units[i];
      HashStep(hash, chr);
      ToInt32Fixed(hash);
      assert units[..i + 1][..i] == units[..i];
      hash := ToInt32(ToInt32(hash * 32) - hash + chr);
      i := i + 1;
    }
    assert units[..i] == units;
    NameHashRolling(units);
  }
}

=== FILE: legacy_emitters.dfy ===
/** `Emitter` of src/ppe/index.ts: the same template as the main engine's,
    built from the legacy generator with the table's middle colour at value
    1 and without speed or slowdown overrides, and `emit`, which appends
    jittered copies of it to the static particle list. */
module LegacyEmitters {
  import opened Util
  import opened Ambient
  import opened Prng
  import opened Colors
  import opened Lifecycle
  import opened Templates
  import opened LegacyParticles

  /** The legacy constructor's arguments as options: an optional hue, the
      two scales, and none of the main engine's overrides. */
  function LegacyOptions(hue: Option<real>, sizeScale: real, countScale: real): (o: EmitOptions)
    ensures o.speed.None? && o.slowdownRatio.None?
    ensures o.hue == hue && o.sizeScale.GetOr(1.0) == sizeScale && o.countScale.GetOr(1.0) == countScale
  {
    EmitOptions(hue, Some(sizeScale), Some(countScale), None, None, None, None)
  }

  /** `c` is a fresh table colour: `new Color(hue, saturation, value, sparkleRatio)`, never limited. */
  ghost predicate Tinted(c: Color?, h: Hsv, hue: real)
    reads c
  {
    c != null && c.Channels() == HsvToRgb(hue, h.saturation, h.value)
    && c.hue == hue && c.saturation == h.saturation && c.value == h.value
    && c.sparkleRatio == h.sparkleRatio && c.sparkled == null && c.lerped == null
  }

  /** The five `Math.random` draws of the `j`-th particle of an emit whose
      first particle draw is `stream(start)`. */
  function DrawsAt(stream: nat -> real, start: nat, j: nat): SpawnDraws {
    var b := start + 5 * j;
    SpawnDraws(stream(b), stream(b + 1), stream(b + 2), stream(b + 3), stream(b + 4))
  }

  /** One `getForParam` on the legacy generator, as the `n`-th of the draws `LegacyUnits(s0, total)`. */
  method NextParam(random: LegacyRandom, ghost s0: State, ghost n: nat, ghost total: nat) returns (r: real)
    requires random.Words() == LegacyAdvance(s0, n) && n < total
    modifies random
    ensures random.Words() == LegacyAdvance(s0, n + 1)
    ensures r == Param(LegacyUnits(s0, total)[n])
  {
    r := random.GetForParam();
  }

  /** What a legacy emitter is made from: the type code, the hue and scales
      as options, the scale ratio of `options` and the generator's state. */
  datatype Origin = Origin(code: Option<char>, options: EmitOptions, scaleRatio: real, start: State)

  class Emitter {
    const template: Template
    const beginColor: Color?
    const middleColor: Color?
    const endColor: Color?
    /** The hue the table colours were made with. */
    ghost const hue: real
    /** The constructor's arguments, with the generator's state on entry. */
    ghost const origin: Origin

    /** The emitter's row of the type table of src/ppe/index.ts (middle colour value 1). */
    static function RowOf(patternType: Option<char>): Row {
      TypeRow(patternType, 1.0)
    }

    /** The template, hue and colour references are the ones the origin
        determines: `Build` of the legacy row over the `DrawCount` legacy
        draws that follow the origin's generator state, and table colours
        exactly for a recognised type. */
    ghost predicate Built() {
      var row := RowOf(origin.code);
      var us := LegacyUnits(origin.start, DrawCount(row.spread, origin.options.hue));
      template == Build(row, origin.options, origin.scaleRatio, us)
      && hue == HueOf(origin.options.hue, us)
      && (row.palette.None? ==> beginColor == null && middleColor == null && endColor == null)
      && (row.palette.Some? ==> beginColor != null && middleColor != null && endColor != null)
    }

    /** `new Emitter(patternType, sizeScale, countScale, hue, random)` with
        `options.scaleRatio`: the template is `Build` of the type's row over
        the legacy generator's next draws, which it consumes in the source's
        order (the hue, when absent, from `get01`); a recognised type gets
        three fresh table colours of the emitter's hue, any other none. */
    constructor (patternType: Option<char>, sizeScale: real, countScale: real, hue: Option<real>,
                 random: LegacyRandom, scaleRatio: real)
      modifies random
      ensures var o := LegacyOptions(hue, sizeScale, countScale);
              var total := DrawCount(RowOf(patternType).spread, hue);
              var us := LegacyUnits(old(random.Words()), total);
              template == Build(RowOf(patternType), o, scaleRatio, us)
              && this.hue == HueOf(hue, us)
              && random.Words() == LegacyAdvance(old(random.Words()), total)
      ensures origin == Origin(patternType, LegacyOptions(hue, sizeScale, countScale), scaleRatio, old(random.Words()))
      ensures Built()
      ensures RowOf(patternType).palette.None? ==> beginColor == null && middleColor == null && endColor == null
      ensures RowOf(patternType).palette.Some? ==>
                var p := RowOf(patternType).palette.value;
                Tinted(beginColor, p.begin, this.hue) && Tinted(middleColor, p.middle, this.hue)
                && Tinted(endColor, p.end, this.hue)
                && fresh(beginColor) && fresh(middleColor) && fresh(endColor)
                && beginColor != middleColor && middleColor != endColor && beginColor != endColor
    {
      var o := LegacyOptions(hue, sizeScale, countScale);
      origin := Origin(patternType, o, scaleRatio, random.Words());
      var row := RowOf(patternType);
      var h, t := Draw(row, o, scaleRatio, random);
      var b, m, e: Color? := null, null, null;
      if row.palette.Some? {
        b, m, e := Tints(row.palette.value, h);
      }
      template := t;
      beginColor, middleColor, endColor := b, m, e;
      this.hue := h;
    }

    /** The constructor's draws on the legacy generator: `get01` for an
        absent hue, `getForParam` for a jittered angle deflection, then the
        nine factors of `Jitter`. */
    static method Draw(row: Row, o: EmitOptions, scaleRatio: real, random: LegacyRandom) returns (h: real, t: Template)
      modifies random
      ensures var total := DrawCount(row.spread, o.hue);
              var us := LegacyUnits(old(random.Words()), total);
              t == Build(row, o, scaleRatio, us) && h == HueOf(o.hue, us)
              && random.Words() == LegacyAdvance(old(random.Words()), total)
    {
      ghost var s0 := random.Words();
      ghost var total := DrawCount(row.spread, o.hue);
      ghost var us := LegacyUnits(s0, total);
      if o.hue.None? {
        h := random.Get01();
      } else {
        h := o.hue.value;
      }
      ghost var n: nat := if o.hue.None? then 1 else 0;
      var angleDeflection: real;
      match row.spread {
        case Fixed(w) =>
          angleDeflection := w;
        case Jittered(f) =>
          var r := NextParam(random, s0, n, total);
          angleDeflection := Swing(f, r);
          n := n + 1;
      }
      assert n + 9 == total && n == Lead(row.spread, o.hue);
      assert angleDeflection == Width(row.spread, us, n);
      t := Jitter(row, o, scaleRatio, angleDeflection, random, s0, n);
    }

    /** The three table colours of a recognised type, all of hue `h`. */
    static method Tints(p: Palette, h: real) returns (b: Color, m: Color, e: Color)
      ensures Tinted(b, p.begin, h) && Tinted(m, p.middle, h) && Tinted(e, p.end, h)
      ensures fresh(b) && fresh(m) && fresh(e) && b != m && m != e && b != e
    {
      b := new Color(h, p.begin.saturation, p.begin.value, p.begin.sparkleRatio, false);
      m := new Color(h, p.middle.saturation, p.middle.value, p.middle.sparkleRatio, false);
      e := new Color(h, p.end.saturation, p.end.value, p.end.sparkleRatio, false);
    }

    /** The nine `getForParam` draws of the constructor after the angle
        deflection, in the order the source multiplies them in. */
    static method Jitter(row: Row, o: EmitOptions, scaleRatio: real, angleDeflection: real, random: LegacyRandom,
                         ghost s0: State, ghost n: nat) returns (t: Template)
      requires random.Words() == LegacyAdvance(s0, n)
      modifies random
      ensures random.Words() == LegacyAdvance(s0, n + 9)
      ensures t == Fill(row, o, scaleRatio, angleDeflection, FactorsAt(LegacyUnits(s0, n + 9), n))
    {
      ghost var total := n + 9;
      var r0 := NextParam(random, s0, n, total);
      var r1 := NextParam(random, s0, n + 1, total);
      var r2 := NextParam(random, s0, n + 2, total);
      var r3 := NextParam(random, s0, n + 3, total);
      var r4 := NextParam(random, s0, n + 4, total);
      var r5 := NextParam(random, s0, n + 5, total);
      var r6 := NextParam(random, s0, n + 6, total);
      var r7 := NextParam(random, s0, n + 7, total);
      var r8 := NextParam(random, s0, n + 8, total);
      var f := Factors(r0, r1, r2, r3, r4, r5, r6, r7, r8);
      t := Fill(row, o, scaleRatio, angleDeflection, f);
      assert FactorsAt(LegacyUnits(s0, total), n) == Factors(r0, r1, r2, r3, r4, r5, r6, r7, r8);
    }

    /** `p` is the particle `emit(x, y, angle)` makes from the draws `d`:
        `SpawnBody` of the template, no colour of its own, this emitter's colours. */
    ghost predicate Made(p: Particle, x: real, y: real, angle: real, d: SpawnDraws)
      reads p
    {
      p.color == null
      && p.beginColor == beginColor && p.middleColor == middleColor && p.endColor == endColor
      && p.State() == SpawnBody(template, x, y, angle, d)
    }

    /** The draws `emit` takes before its particles: one when the count is below 1. */
    function LeadDraws(): nat {
      if template.count < 1.0 then 1 else 0
    }

    /** How many particles an `emit` whose first draw is `u` spawns. */
    function Spawns(u: real): nat {
      SpawnCount(template.count, u)
    }

    /** `ps` is `before` followed by the particles of an `emit(x, y, angle)`
        whose first draw is `stream(u0)`. */
    ghost predicate Spawned(ps: seq<Particle>, before: seq<Particle>, x: real, y: real, angle: real,
                            stream: nat -> real, u0: nat)
      reads ps
    {
      Appended(ps, before, x, y, angle, stream, u0 + LeadDraws(), Spawns(stream(u0)))
    }

    /** `ps` is `before` followed by `n` particles, the j-th `Made` from the
        five draws from `stream(start + 5 * j)` on. */
    ghost predicate Appended(ps: seq<Particle>, before: seq<Particle>, x: real, y: real, angle: real,
                             stream: nat -> real, start: nat, n: nat)
      reads ps
    {
      |ps| == |before| + n && ps[..|before|] == before
      && forall k :: |before| <= k < |ps| ==>
           Made(ps[k], x, y, angle, DrawsAt(stream, start, k - |before|))
    }

    /** `emit(x, y, angle)`: when the count is below 1 one draw decides
        whether to spawn at all; then `Spawns` fresh particles are pushed
        onto `Particle.s`, five draws each. Earlier entries stay as they were. */
    method Emit(x: real, y: real, angle: real, list: ParticleList, rng: MathRandom)
      requires list.Valid() && rng.Valid()
      modifies list, rng
      ensures list.Valid() && rng.Valid()
      ensures Spawned(list.s, old(list.s), x, y, angle, rng.stream, old(rng.used))
      ensures rng.used == old(rng.used) + LeadDraws() + 5 * Spawns(rng.stream(old(rng.used)))
      ensures forall k :: |old(list.s)| <= k < |list.s| ==> fresh(list.s[k])
    {
      ghost var u0 := rng.used;
      if template.count < 1.0 {
        var u := rng.Next();
        if template.count < u {
          assert LeadDraws() == 1 && Spawns(rng.stream(u0)) == 0;
          Unchanged(list.s, x, y, angle, rng.stream, u0 + 1);
          return;
        }
      }
      assert rng.used == u0 + LeadDraws() && Spawns(rng.stream(u0)) == CountBelow(template.count);
      SpawnAll(x, y, angle, list, rng);
    }

    /** An emit that spawns nothing leaves the list as it was. */
    lemma Unchanged(ps: seq<Particle>, x: real, y: real, angle: real, stream: nat -> real, start: nat)
      ensures Appended(ps, ps, x, y, angle, stream, start, 0)
    {
      assert ps[..|ps|] == ps;
    }

    /** `emit`'s loop: `CountBelow(count)` particles, five draws each. */
    method SpawnAll(x: real, y: real, angle: real, list: ParticleList, rng: MathRandom)
      requires list.Valid() && rng.Valid()
      modifies list, rng
      ensures list.Valid() && rng.Valid()
      ensures Appended(list.s, old(list.s), x, y, angle, rng.stream, old(rng.used), CountBelow(template.count))
      ensures rng.used == old(rng.used) + 5 * CountBelow(template.count)
      ensures forall k :: |old(list.s)| <= k < |list.s| ==> fresh(list.s[k])
    {
      ghost var start := rng.used;
      ghost var n := CountBelow(template.count);
      var i := 0;
      while (i as real) < template.count
        invariant 0 <= i <= n
        invariant Appended(list.s, old(list.s), x, y, angle, rng.stream, start, i)
        invariant NoDup(list.s)
        invariant rng.used == start + 5 * i && rng.Valid()
        invariant forall k :: |old(list.s)| <= k < |list.s| ==> fresh(list.s[k])
        decreases n - i
      {
        CountBelowSpec(template.count, i);
        var p := Spawn(x, y, angle, rng);
        AppendOne(list.s, old(list.s), x, y, angle, rng.stream, start, i, p);
        list.s := list.s + [p];
        i := i + 1;
      }
      CountBelowSpec(template.count, i);
    }

    /** One more particle, made from the next five draws. */
    lemma AppendOne(ps: seq<Particle>, before: seq<Particle>, x: real, y: real, angle: real,
                    stream: nat -> real, start: nat, n: nat, p: Particle)
      requires Appended(ps, before, x, y, angle, stream, start, n)
      requires Made(p, x, y, angle, DrawsAt(stream, start + 5 * n, 0))
      ensures Appended(ps + [p], before, x, y, angle, stream, start, n + 1)
    {
      var qs := ps + [p];
      assert qs[..|before|] == ps[..|before|];
      assert DrawsAt(stream, start + 5 * n, 0) == DrawsAt(stream, start, n);
    }

    /** The body of `emit`'s loop: a new particle from five draws. */
    method Spawn(x: real, y: real, angle: real, rng: MathRandom) returns (p: Particle)
      requires rng.Valid()
      modifies rng
      ensures fresh(p) && rng.Valid()
      ensures rng.used == old(rng.used) + 5
      ensures Made(p, x, y, angle, DrawsAt(rng.stream, old(rng.used), 0))
    {
      var u := rng.Next();
      var a := angle + (u - 0.5) * template.angleDeflection;
      u := rng.Next();
      var speed := template.speed * Deflected(u, template.speedDeflection);
      u := rng.Next();
      var targetSize := template.targetSize * Deflected(u, template.sizeDeflection);
      u := rng.Next();
      var middleTicks := template.middleTicks * Deflected(u, template.ticksDeflection);
      u := rng.Next();
      var endTicks := template.endTicks * Deflected(u, template.ticksDeflection);
      p := new Particle.Spawned(Vector(x, y), a, speed, template.slowdownRatio,
                                targetSize, middleTicks, endTicks, beginColor, middleColor, endColor);
    }
  }
}

=== FILE: legacy_particles.dfy ===
/** `Particle` of src/ppe/index.ts, the legacy engine: a particle without
    drift velocity or alive flag, and the single static list `Particle.s`
    that every emit appends to and `Particle.update` sweeps. */
module LegacyParticles {
  import opened Util
  import opened Ambient
  import opened Colors
  import opened Lifecycle
  import Particles

  /** The legacy particle has no drift: it moves as a main-engine body with zero drift. */
  const REST: Vector := Vector(0.0, 0.0)

  /** One legacy `update` on the numbers: `Move` without drift. */
  function Glide(b: Body, heading: real -> Vector): Body {
    Move(b, heading, REST)
  }

  /** `n` legacy updates. */
  function Glides(b: Body, heading: real -> Vector, n: nat): Body {
    if n == 0 then b else Glide(Glides(b, heading, n - 1), heading)
  }

  /** The legacy update is the main engine's update of a particle at rest:
      its velocity stays zero and the body follows the same path. */
  lemma {:induction false} AtRest(b: Body, heading: real -> Vector, n: nat, alive: bool)
    ensures Particles.Steps(Particles.Flight(b, REST, alive), heading, n).body == Glides(b, heading, n)
    ensures Particles.Steps(Particles.Flight(b, REST, alive), heading, n).vel == REST
  {
    if n > 0 {
      AtRest(b, heading, n - 1, alive);
    }
  }

  /** A legacy particle lives as long as a main-engine one: after n
      updates its tick count has climbed by min(n, CountBelow(endTicks - ticks)) ... */
  lemma {:induction false} LegacyLifetime(b: Body, heading: real -> Vector, n: nat)
    ensures Glides(b, heading, n).endTicks == b.endTicks
    ensures Glides(b, heading, n).ticks == b.ticks + Min(n, CountBelow(b.endTicks - b.ticks)) as real
  {
    if n > 0 {
      LegacyLifetime(b, heading, n - 1);
      var g := Glides(b, heading, n - 1);
      MoveTicks(g, heading, REST);
      CountBelowSpec(b.endTicks - b.ticks, n - 1);
    }
  }

  /** ... and update k finds it live, and draws and keeps it, exactly when
      k is below that bound. */
  lemma {:induction false} LegacyLiveAt(b: Body, heading: real -> Vector, k: nat)
    ensures Live(Glides(b, heading, k)) <==> k < CountBelow(b.endTicks - b.ticks)
  {
    LegacyLifetime(b, heading, k);
    CountBelowSpec(b.endTicks - b.ticks, k);
  }

  class Particle {
    var pos: Vector
    var size: real
    var color: Color?
    var angle: real
    var speed: real
    var slowdownRatio: real
    var targetSize: real
    var middleTicks: real
    var endTicks: real
    /** The phase colours, which `emit` writes once right after `new Particle()`
        and nothing changes afterwards. */
    const beginColor: Color?
    const middleColor: Color?
    const endColor: Color?
    var ticks: Tick

    function State(): Body
      reads this
    {
      Body(pos, angle, speed, slowdownRatio, size, targetSize, middleTicks, endTicks, ticks)
    }

    /** `new Particle()` followed by the field assignments of `emit`: size 0,
        ticks 0, no colour of its own, and the given numbers and shared colours. */
    constructor Spawned(pos: Vector, angle: real, speed: real, slowdownRatio: real,
                        targetSize: real, middleTicks: real, endTicks: real,
                        beginColor: Color?, middleColor: Color?, endColor: Color?)
      ensures State() == Body(pos, angle, speed, slowdownRatio, 0.0, targetSize, middleTicks, endTicks, 0.0)
      ensures color == null && this.beginColor == beginColor && this.middleColor == middleColor && this.endColor == endColor
    {
      this.pos, size, this.angle, this.speed, this.slowdownRatio := pos, 0.0, angle, speed, slowdownRatio;
      this.targetSize, this.middleTicks, this.endTicks, ticks := targetSize, middleTicks, endTicks, 0.0;
      color, this.beginColor, this.middleColor, this.endColor := null, beginColor, middleColor, endColor;
    }

    /** All three phase colours are set, as `emit` leaves every particle of
        an emitter with a recognised type code: then every update finds the
        colours it dereferences, however many there are. */
    predicate Colored() {
      beginColor != null && middleColor != null && endColor != null
    }

    /** The colours the next `update` dereferences are set. */
    predicate CanUpdate()
      reads this
    {
      ticks < endTicks ==>
        middleColor != null && (if ticks < middleTicks then beginColor != null else endColor != null)
    }

    /** The colour the current phase blends from ... */
    function From(): Color?
      reads this
    {
      if ticks < middleTicks then beginColor else middleColor
    }

    /** ... and the one it blends to. */
    function To(): Color?
      reads this
    {
      if ticks < middleTicks then middleColor else endColor
    }

    /** `update`: one `Glide`; `kept` is false exactly when the particle was
        found past its end (it has moved all the same). A live particle's
        colour becomes the sparkled blend of its phase, unlimited, from three
        fresh draws. */
    method Update(heading: real -> Vector, rng: MathRandom) returns (kept: bool)
      requires CanUpdate() && rng.Valid()
      modifies this, rng, iset c: Color {:trigger c.r} | true
      ensures State() == Glide(old(State()), heading)
      ensures kept <==> Live(old(State()))
      ensures !kept ==> color == old(color) && rng.used == old(rng.used)
      ensures kept ==> rng.used == old(rng.used) + 3
      ensures kept ==> color != null
      ensures kept ==> color.Channels()
                       == Glow(old(PhaseRatio(ticks, middleTicks, endTicks)), old(From().Channels()), old(From().sparkleRatio),
                               old(To().Channels()), old(To().sparkleRatio),
                               rng.stream(old(rng.used)), rng.stream(old(rng.used) + 1),
                               rng.stream(old(rng.used) + 2), false)
    {
      kept := ticks < endTicks;
      if kept {
        color := Paint(rng);
      }
      Advance(heading);
    }

    /** The numeric part of `update`, in the source's order: move, decay the
        speed, stop if past the end, else grow or shrink and count the tick. */
    method Advance(heading: real -> Vector)
      modifies this
      ensures State() == Glide(old(State()), heading)
      ensures color == old(color)
    {
      pos := Displaced(pos, heading(angle), speed, REST);
      speed := Decayed(speed, slowdownRatio);
      if ticks >= endTicks {
        return;
      }
      if ticks < middleTicks {
        size := Grown(size, targetSize);
      } else {
        size := Shrunk(size);
      }
      ticks := ticks + 1.0;
    }

    /** The colour work of a live `update`: `getLerped`, then `getSparkled`,
        neither of which limits colours in this version. */
    method Paint(rng: MathRandom) returns (s: Color)
      requires CanUpdate() && ticks < endTicks && rng.Valid()
      modifies rng, iset c: Color {:trigger c.r} | true
      ensures rng.used == old(rng.used) + 3
      ensures s.Channels()
              == Glow(PhaseRatio(ticks, middleTicks, endTicks), old(From().Channels()), old(From().sparkleRatio),
                      old(To().Channels()), old(To().sparkleRatio),
                      rng.stream(old(rng.used)), rng.stream(old(rng.used) + 1),
                      rng.stream(old(rng.used) + 2), false)
    {
      var c: Color;
      if ticks < middleTicks {
        c := beginColor.GetLerped(middleColor, ticks / middleTicks, false);
      } else {
        c := middleColor.GetLerped(endColor, (ticks - middleTicks) / (endTicks - middleTicks), false);
      }
      s := c.GetSparkled(false, rng);
    }
  }

  /** The states of a list of particles, in list order. */
  ghost function Bodies(ps: seq<Particle>): (bs: seq<Body>)
    reads ps
    ensures |bs| == |ps|
    ensures forall i :: 0 <= i < |ps| ==> bs[i] == ps[i].State()
  {
    seq(|ps|, i requires 0 <= i < |ps| reads ps => ps[i].State())
  }

  /** Every particle of `ps` has all three phase colours. */
  predicate AllColored(ps: seq<Particle>) {
    ps == [] || (AllColored(ps[..|ps| - 1]) && ps[|ps| - 1].Colored())
  }

  /** `AllColored` holds exactly when every particle of the list is coloured. */
  lemma {:induction false} AllColoredSpec(ps: seq<Particle>)
    ensures AllColored(ps) <==> forall p :: p in ps ==> p.Colored()
  {
    if ps != [] {
      AllColoredSpec(ps[..|ps| - 1]);
      assert ps == ps[..|ps| - 1] + [ps[|ps| - 1]];
    }
  }

  /** The particles an update keeps are among those it started from, so a
      coloured list stays coloured. */
  lemma SelectColored(ps: seq<Particle>, keep: seq<bool>)
    requires |ps| == |keep|
    ensures AllColored(ps) ==> AllColored(Select(ps, keep))
  {
    AllColoredSpec(ps);
    AllColoredSpec(Select(ps, keep));
    SelectSubset(ps, keep);
  }

  /** Which of a list of states the next update finds live: exactly those
      whose lifetime (the number of live updates `LegacyLifetime` counts) is
      not yet used up. */
  function LiveMarks(bs: seq<Body>): (m: seq<bool>)
    ensures |m| == |bs|
    ensures forall i :: 0 <= i < |bs| ==> m[i] == Live(bs[i])
    ensures forall i :: 0 <= i < |bs| ==> (m[i] <==> 0 < CountBelow(bs[i].endTicks - bs[i].ticks))
  {
    seq(|bs|, i requires 0 <= i < |bs| => Live(bs[i]))
  }

  /** The static list `Particle.s`. */
  class ParticleList {
    var s: seq<Particle>

    /** The list never holds the same particle twice. */
    ghost predicate Valid()
      reads this
    {
      NoDup(s)
    }

    /** A list whose particles all have their colours can take its next update. */
    lemma ColoredReady()
      requires AllColored(s)
      ensures Ready()
    {
      AllColoredSpec(s);
    }

    /** Every particle can take its next update. */
    predicate Ready()
      reads this, s
    {
      forall p :: p in s ==> p.CanUpdate()
    }

    /** `static s: Particle[] = []`. */
    constructor ()
      ensures s == [] && Valid()
    {
      s := [];
    }

    /** `Particle.update()`: updates every particle once, in order, and
        splices out exactly those found past their end; the survivors keep
        their order. Each particle drawn takes three draws. */
    method Update(heading: real -> Vector, rng: MathRandom)
      requires Valid() && Ready() && rng.Valid()
      modifies this, s, rng, iset c: Color {:trigger c.r} | true
      ensures Valid()
      ensures s == Select(old(s), LiveMarks(old(Bodies(s))))
      ensures forall k :: 0 <= k < |old(s)| ==> old(s)[k].State() == Glide(old(s[k].State()), heading)
      ensures rng.used == old(rng.used) + 3 * Count(LiveMarks(old(Bodies(s))))
      ensures AllColored(old(s)) ==> AllColored(s)
    {
      ghost var ps := s;
      ghost var before := Bodies(ps);
      ghost var mask := LiveMarks(before);
      Sweep(heading, rng, ps, before, mask);
      SelectNoDup(ps, mask);
      SelectColored(ps, mask);
    }

    /** The loop of `update`, over the list `ps` it starts from, with
        `before` the states of `ps` and `mask` their live marks. */
    method Sweep(heading: real -> Vector, rng: MathRandom,
                 ghost ps: seq<Particle>, ghost before: seq<Body>, ghost mask: seq<bool>)
      requires s == ps && |ps| == |before| == |mask| && NoDup(ps) && rng.Valid()
      requires forall k :: 0 <= k < |ps| ==> mask[k] == Live(before[k])
      requires forall k :: 0 <= k < |ps| ==> ps[k].State() == before[k] && ps[k].CanUpdate()
      modifies this, ps, rng, iset c: Color {:trigger c.r} | true
      ensures s == Select(ps, mask)
      ensures forall k :: 0 <= k < |ps| ==> ps[k].State() == Glide(before[k], heading)
      ensures rng.used == old(rng.used) + 3 * Count(mask)
    {
      ghost var j := 0;
      var i := 0;
      while i < |s|
        invariant 0 <= j <= |ps|
        invariant i == |Select(ps[..j], mask[..j])| && s == Select(ps[..j], mask[..j]) + ps[j..]
        invariant forall k :: 0 <= k < j ==> ps[k].State() == Glide(before[k], heading)
        invariant forall k :: j <= k < |ps| ==> ps[k].State() == before[k] && ps[k].CanUpdate()
        invariant rng.used == old(rng.used) + 3 * Count(mask[..j])
        decreases |ps| - j
      {
        i := UpdateAt(i, heading, rng, ps, before, mask, j);
        j := j + 1;
      }
      assert j == |ps|;
      assert ps[..j] == ps && mask[..j] == mask;
    }

    /** One pass of the loop, on `s[i]`, which is `ps[j]`: it takes its
        update and is spliced out if it was found past its end, otherwise
        `i` moves past it. */
    method UpdateAt(i: nat, heading: real -> Vector, rng: MathRandom,
                    ghost ps: seq<Particle>, ghost before: seq<Body>, ghost mask: seq<bool>, ghost j: nat)
      returns (next: nat)
      requires j < |ps| == |before| == |mask| && NoDup(ps) && rng.Valid()
      requires forall k :: 0 <= k < |ps| ==> mask[k] == Live(before[k])
      requires i == |Select(ps[..j], mask[..j])| && s == Select(ps[..j], mask[..j]) + ps[j..]
      requires forall k :: 0 <= k < j ==> ps[k].State() == Glide(before[k], heading)
      requires forall k :: j <= k < |ps| ==> ps[k].State() == before[k] && ps[k].CanUpdate()
      modifies this, ps[j], rng, iset c: Color {:trigger c.r} | true
      ensures next == |Select(ps[..j + 1], mask[..j + 1])|
      ensures s == Select(ps[..j + 1], mask[..j + 1]) + ps[j + 1..]
      ensures forall k :: 0 <= k <= j ==> ps[k].State() == Glide(before[k], heading)
      ensures forall k :: j < k < |ps| ==> ps[k].State() == before[k] && ps[k].CanUpdate()
      ensures rng.used == old(rng.used) + (if mask[j] then 3 else 0)
      ensures Count(mask[..j + 1]) == Count(mask[..j]) + (if mask[j] then 1 else 0)
    {
      SpliceStep(ps, mask, j, Select(ps[..j], mask[..j]), s);
      forall k | 0 <= k < |ps| && k != j
        ensures ps[k] != ps[j]
      {
        if k < j { assert ps[k] != ps[j]; } else { assert ps[j] != ps[k]; }
      }
      var kept := s[i].Update(heading, rng);
      if !kept {
        s := s[..i] + s[i + 1..];
        next := i;
      } else {
        next := i + 1;
      }
    }

    /** `Particle.s = []`, as `reset` does. */
    method Clear()
      modifies this
      ensures s == [] && Valid()
    {
      s := [];
    }
  }
}

=== FILE: legacy_registry.dfy ===
/** The module-level state of src/ppe/index.ts (`options.scaleRatio`,
    `emitters`, `seed` and the static list `Particle.s`) and the functions
    over it: `emit`, `update`, `setSeed` and `reset`. */
module LegacyRegistry {
  import opened Util
  import opened Ambient
  import opened Hash
  import opened Prng
  import opened Colors
  import opened Lifecycle
  import opened Templates
  import opened LegacyParticles
  import opened LegacyEmitters

  /** The argument value at which the legacy `setSeed` ignores its argument
      and seeds from `Math.random()` instead (its default, -0x7fffffff). */
  const UNSEEDED: int := -0x7fff_ffff

  /** Whether the seed argument of a first `emit` of `name` is the sentinel. */
  predicate Reseeds(seed: int, name: string) {
    seed + NameHash(Utf16(name)) == UNSEEDED
  }

  /** The value the legacy `setSeed(seed + getHashFromString(name))` seeds
      with: the argument itself, unless it is the sentinel, in which case
      `floor(u * 0x7fffffff)` of the next ambient draw `u`. */
  function SeedArg(seed: int, name: string, u: real): int {
    if Reseeds(seed, name) then (u * 2147483647.0).Floor else seed + NameHash(Utf16(name))
  }

  /** Whatever the name and seed, the value seeded with is never the
      sentinel when the draw lies in [0,1): a redraw lands in [0, 0x7fffffff). */
  lemma SeedArgSettles(seed: int, name: string, u: real)
    requires 0.0 <= u < 1.0
    ensures SeedArg(seed, name, u) != UNSEEDED
    ensures Reseeds(seed, name) ==> 0 <= SeedArg(seed, name, u) < 0x7fff_ffff
    ensures !Reseeds(seed, name) ==> SeedArg(seed, name, u) == seed + NameHash(Utf16(name))
  {
    if Reseeds(seed, name) {
      Scale(u);
    }
  }

  lemma Scale(u: real)
    requires 0.0 <= u < 1.0
    ensures 0 <= (u * 2147483647.0).Floor < 0x7fff_ffff
  {
    assert 0.0 <= u * 2147483647.0 < 2147483647.0;
  }

  /** The ambient draws a first `emit` of `name` takes before its particles:
      the one of `new Random()`, and one more when the seed argument is the sentinel. */
  function MakeDraws(seed: int, name: string): nat {
    if Reseeds(seed, name) then 2 else 1
  }

  /** Every cached emitter holds the template and colours its origin determines. */
  ghost predicate AllBuilt(es: map<string, Emitter>) {
    forall e :: e in es.Values ==> e.Built()
  }

  /** Caching one more built emitter keeps every cached emitter built. */
  lemma CacheBuilt(es: map<string, Emitter>, name: string, e: Emitter)
    requires AllBuilt(es) && e.Built()
    ensures AllBuilt(es[name := e])
  {
    forall d | d in es[name := e].Values
      ensures d.Built()
    {
      var n :| n in es[name := e] && es[name := e][n] == d;
      if n != name {
        assert es[n] in es.Values;
      }
    }
  }

  class Engine {
    /** `options.scaleRatio` (the canvas option is not modelled). */
    var scaleRatio: real
    var emitters: map<string, Emitter>
    var seed: int
    /** `Particle.s`. */
    const list: ParticleList

    ghost predicate Valid()
      reads this, list
    {
      list.Valid()
    }

    /** Every particle can take its next update. */
    predicate Ready()
      reads this, list, list.s
    {
      list.Ready()
    }

    /** The module's initial state: scale ratio 1, no emitters, seed 0, no particles. */
    constructor ()
      ensures Valid() && AllBuilt(emitters) && fresh(list)
      ensures scaleRatio == 1.0 && emitters == map[] && seed == 0 && list.s == []
    {
      scaleRatio, emitters, seed := 1.0, map[], 0;
      list := new ParticleList();
    }

    /** `setSeed(seed)`: only emitters made later see the new seed. */
    method SetSeed(seed: int)
      modifies this
      ensures this.seed == seed
      ensures scaleRatio == old(scaleRatio) && emitters == old(emitters)
    {
      this.seed := seed;
    }

    /** The emitter `emit` uses for `name`: the cached one, or, on the first
        use of the name, a new one (see `NewEmitter`) that joins the cache. */
    method EmitterFor(name: string, sizeScale: real, countScale: real, hue: Option<real>,
                      seeding: int -> State, rng: MathRandom) returns (e: Emitter)
      requires AllBuilt(emitters) && rng.Valid()
      modifies this, rng
      ensures AllBuilt(emitters) && name in emitters && e == emitters[name] && rng.Valid()
      ensures name in old(emitters) ==> emitters == old(emitters) && rng.used == old(rng.used)
      ensures name !in old(emitters) ==>
                fresh(e) && emitters == old(emitters)[name := e]
                && rng.used == old(rng.used) + MakeDraws(seed, name)
                && e.origin == Origin(TypeCode(name), LegacyOptions(hue, sizeScale, countScale), scaleRatio,
                                      seeding(SeedArg(seed, name, rng.stream(old(rng.used) + 1))))
      ensures scaleRatio == old(scaleRatio) && seed == old(seed)
    {
      if name in emitters {
        e := emitters[name];
        return;
      }
      e := NewEmitter(name, sizeScale, countScale, hue, seeding, rng);
      Cache(name, e);
    }

    /** `emitters[name] = emitter`. */
    method Cache(name: string, e: Emitter)
      requires AllBuilt(emitters) && e.Built()
      modifies this
      ensures AllBuilt(emitters) && emitters == old(emitters)[name := e]
      ensures scaleRatio == old(scaleRatio) && seed == old(seed)
    {
      CacheBuilt(emitters, name, e);
      emitters := emitters[name := e];
    }

    /** The uncached branch of `emit`: `new Random()` (one ambient draw,
        whose state is at once replaced), `setSeed(seed + hash of the name)`
        (a second draw for the sentinel), then `new Emitter(name[0], ...)`.
        The generator state `setSeed(v)` produces is `seeding(v)`. */
    method NewEmitter(name: string, sizeScale: real, countScale: real, hue: Option<real>,
                      seeding: int -> State, rng: MathRandom) returns (e: Emitter)
      requires rng.Valid()
      modifies rng
      ensures fresh(e) && rng.Valid()
      ensures rng.used == old(rng.used) + MakeDraws(seed, name)
      ensures e.origin == Origin(TypeCode(name), LegacyOptions(hue, sizeScale, countScale), scaleRatio,
                                 seeding(SeedArg(seed, name, rng.stream(old(rng.used) + 1))))
      ensures e.Built()
    {
      var v := SeedFor(name, rng);
      var random := new LegacyRandom(seeding(v));
      e := new Emitter(TypeCode(name), sizeScale, countScale, hue, random, scaleRatio);
    }

    /** The draws of `new Random()` and `setSeed(seed + hash of the name)`,
        and the value the generator ends up seeded with. */
    method SeedFor(name: string, rng: MathRandom) returns (v: int)
      requires rng.Valid()
      modifies rng
      ensures rng.Valid() && rng.used == old(rng.used) + MakeDraws(seed, name)
      ensures v == SeedArg(seed, name, rng.stream(old(rng.used) + 1))
    {
      var _ := rng.Next();
      var hash := GetHashFromString(name);
      v := seed + hash;
      if v == UNSEEDED {
        var u := rng.Next();
        v := (u * 2147483647.0).Floor;
      }
    }

    /** `emit(name, x, y, angle, sizeScale, countScale, hue)`: the name's
        emitter, made on first use, pushes its particles onto `Particle.s`;
        nothing else in the list changes. The ghost results name that
        emitter and the ambient draws taken before its particles. */
    method Emit(name: string, x: real, y: real, angle: real, sizeScale: real, countScale: real,
                hue: Option<real>, seeding: int -> State, rng: MathRandom)
      returns (ghost e: Emitter, ghost u0: nat)
      requires Valid() && AllBuilt(emitters) && rng.Valid()
      modifies this, list, rng
      ensures Valid() && AllBuilt(emitters) && rng.Valid()
      ensures scaleRatio == old(scaleRatio) && seed == old(seed)
      ensures name in emitters && e == emitters[name]
      ensures name in old(emitters) ==> emitters == old(emitters)
      ensures name !in old(emitters) ==>
                fresh(e) && emitters == old(emitters)[name := e]
                && e.origin == Origin(TypeCode(name), LegacyOptions(hue, sizeScale, countScale), scaleRatio,
                                      seeding(SeedArg(seed, name, rng.stream(old(rng.used) + 1))))
      ensures u0 == old(rng.used) + (if name in old(emitters) then 0 else MakeDraws(seed, name))
      ensures e.Spawned(list.s, old(list.s), x, y, angle, rng.stream, u0)
      ensures rng.used == u0 + e.LeadDraws() + 5 * e.Spawns(rng.stream(u0))
      ensures forall k :: |old(list.s)| <= k < |list.s| ==> fresh(list.s[k])
    {
      u0 := old(rng.used) + (if name in old(emitters) then 0 else MakeDraws(seed, name));
      var em := EmitterFor(name, sizeScale, countScale, hue, seeding, rng);
      assert rng.used == u0;
      em.Emit(x, y, angle, list, rng);
      e := em;
    }

    /** `update()`: `Particle.update()` on the list. */
    method Update(heading: real -> Vector, rng: MathRandom)
      requires Valid() && Ready() && rng.Valid()
      modifies list, list.s, rng, iset c: Color {:trigger c.r} | true
      ensures Valid()
      ensures list.s == Select(old(list.s), LiveMarks(old(Bodies(list.s))))
      ensures forall k :: 0 <= k < |old(list.s)| ==> old(list.s)[k].State() == Glide(old(list.s[k].State()), heading)
      ensures rng.used == old(rng.used) + 3 * Count(LiveMarks(old(Bodies(list.s))))
      ensures AllColored(old(list.s)) ==> AllColored(list.s)
    {
      list.Update(heading, rng);
    }

    /** `reset()`: forgets every emitter and empties `Particle.s`. */
    method Reset()
      modifies this, list
      ensures Valid() && AllBuilt(emitters) && emitters == map[] && list.s == []
      ensures scaleRatio == old(scaleRatio) && seed == old(seed)
    {
      emitters := map[];
      list.Clear();
    }
  }
}

=== FILE: lifecycle.dfy ===
/** The value part of `Particle.update`, shared by both engine versions:
    motion, the grow and shrink phases, the tick counter and the colour a
    live particle takes on a tick. */
module Lifecycle {
  import opened Colors

  datatype Vector = Vector(x: real, y: real)

  /** A tick count: it starts at 0 and only ever grows by 1. */
  type Tick = t: real | 0.0 <= t

  /** The numeric fields of a particle that `update` reads and writes
      (everything but the drift velocity, the alive flag and the colours). */
  datatype Body = Body(pos: Vector, angle: real, speed: real, slowdownRatio: real,
                       size: real, targetSize: real,
                       middleTicks: real, endTicks: real, ticks: Tick)

  /** `update` draws and counts the tick only while `ticks < endTicks`. */
  predicate Live(b: Body) {
    b.ticks < b.endTicks
  }

  /** Before `middleTicks` the particle grows and blends begin to middle colour. */
  predicate Growing(b: Body) {
    b.ticks < b.middleTicks
  }

  /** The number of natural numbers below `c`: ceil(c) for positive c, else 0.
      It is both how many times `for (i = 0; i < c; i++)` runs and how many
      ticks a particle with `endTicks == c` lives. */
  function CountBelow(c: real): (n: nat)
    ensures c <= n as real
    ensures n == 0 || ((n - 1) as real) < c
  {
    if c <= 0.0 then 0 else -((-c).Floor)
  }

  lemma CountBelowSpec(c: real, i: nat)
    ensures i < CountBelow(c) <==> (i as real) < c
  {
  }

  /** One `update` on the numeric fields: the position moves by the heading
      of `angle` times `speed` plus `drift`, and the speed decays; then a body
      at or past `endTicks` stops there, and a live one grows towards (or,
      after `middleTicks`, shrinks away from) its target size and counts the tick.
      `heading(a)` stands for (cos a, sin a). */
  function Move(b: Body, heading: real -> Vector, drift: Vector): Body {
    var moved := b.(pos := Displaced(b.pos, heading(b.angle), b.speed, drift),
                    speed := Decayed(b.speed, b.slowdownRatio));
    if !Live(b) then moved
    else if Growing(b) then moved.(size := Grown(b.size, b.targetSize), ticks := b.ticks + 1.0)
    else moved.(size := Shrunk(b.size), ticks := b.ticks + 1.0)
  }

  /** `pos += heading * speed + drift`, coordinate by coordinate. */
  function Displaced(pos: Vector, h: Vector, speed: real, drift: Vector): Vector {
    Vector(pos.x + h.x * speed + drift.x, pos.y + h.y * speed + drift.y)
  }

  /** `speed *= 1 - slowdownRatio`. */
  function Decayed(speed: real, slowdownRatio: real): real {
    speed * (1.0 - slowdownRatio)
  }

  /** `size += (targetSize - size) * 0.1`. */
  function Grown(size: real, targetSize: real): real {
    size + (targetSize - size) * 0.1
  }

  /** `size *= 0.95`. */
  function Shrunk(size: real): real {
    size * 0.95
  }

  /** The tick advances exactly when the body is live; the phase limits never change,
      and a body past its end keeps its size. */
  lemma MoveTicks(b: Body, heading: real -> Vector, drift: Vector)
    ensures var n := Move(b, heading, drift);
      n.ticks == (if Live(b) then b.ticks + 1.0 else b.ticks)
      && n.middleTicks == b.middleTicks && n.endTicks == b.endTicks
      && n.targetSize == b.targetSize && n.angle == b.angle
      && (!Live(b) ==> n.size == b.size)
  {
  }

  /** While growing, each tick closes a tenth of the gap to the target size. */
  lemma GrowTowardTarget(b: Body, heading: real -> Vector, drift: Vector)
    requires Live(b) && Growing(b)
    ensures Dist(Move(b, heading, drift).size, b.targetSize) == 0.9 * Dist(b.size, b.targetSize)
  {
  }

  /** While shrinking, a non-negative size falls but stays non-negative. */
  lemma ShrinkTowardZero(b: Body, heading: real -> Vector, drift: Vector)
    requires Live(b) && !Growing(b) && 0.0 <= b.size
    ensures 0.0 <= Move(b, heading, drift).size <= b.size
  {
  }

  /** The blend ratio of a live tick: ticks/middleTicks while growing, else
      (ticks - middleTicks)/(endTicks - middleTicks). The liveness check runs
      first, so both denominators are positive and the ratio lies in [0,1). */
  function PhaseRatio(ticks: Tick, middleTicks: real, endTicks: real): (t: real)
    requires ticks < endTicks
    ensures 0.0 <= t < 1.0
  {
    if ticks < middleTicks then
      RatioBelowOne(ticks, middleTicks);
      ticks / middleTicks
    else
      RatioBelowOne(ticks - middleTicks, endTicks - middleTicks);
      (ticks - middleTicks) / (endTicks - middleTicks)
  }

  lemma RatioBelowOne(a: real, d: real)
    requires 0.0 <= a < d
    ensures 0.0 <= a / d < 1.0
  {
    var q := a / d;
    assert q * d == a;
    if q >= 1.0 {
      assert false;
    }
    if q < 0.0 {
      assert false;
    }
  }

  /** Each phase starts from its first colour: the ratio is 0 at tick 0 of a
      growing body and at the tick the shrinking phase begins. */
  lemma PhaseStart(ticks: Tick, middleTicks: real, endTicks: real)
    requires ticks < endTicks
    requires (ticks == 0.0 && 0.0 < middleTicks) || ticks == middleTicks
    ensures PhaseRatio(ticks, middleTicks, endTicks) == 0.0
  {
  }

  /** The colour a live tick draws: the phase's two colours blended at the
      phase ratio `t` (the sparkle ratio blended alike), then sparkled with
      three draws. */
  function Glow(t: real, from: Rgb, fromSparkle: real, to: Rgb, toSparkle: real,
                u1: real, u2: real, u3: real, limiting: bool): (c: Rgb)
    ensures 0.0 <= c.r <= 1.0 && 0.0 <= c.g <= 1.0 && 0.0 <= c.b <= 1.0
  {
    SparkleRgb(LerpRgb(from, to, t, limiting), Lerp(fromSparkle, toSparkle, t), u1, u2, u3, limiting)
  }

  function Min(a: int, b: int): int {
    if a <= b then a else b
  }
}

=== FILE: particles.dfy ===
/** `Particle` and `ParticlePool` of src/index.ts. */
module Particles {
  import opened Util
  import opened Ambient
  import opened Colors
  import opened Lifecycle

  /** A particle's numeric state with its drift velocity and alive flag. */
  datatype Flight = Flight(body: Body, vel: Vector, isAlive: bool)

  /** One `update` on the state: the motion of `Move` with the velocity as
      drift, the velocity decays by 1%, and a particle found at or past its
      end is marked dead. */
  function Step(f: Flight, heading: real -> Vector): Flight {
    Flight(Move(f.body, heading, f.vel),
           Dragged(f.vel),
           f.isAlive && Live(f.body))
  }

  /** `vel *= 0.99`, coordinate by coordinate. */
  function Dragged(vel: Vector): Vector {
    Vector(vel.x * 0.99, vel.y * 0.99)
  }

  /** `n` updates. */
  function Steps(f: Flight, heading: real -> Vector, n: nat): Flight {
    if n == 0 then f else Step(Steps(f, heading, n - 1), heading)
  }

  /** The tick counter climbs by one per update for as long as it is below
      `endTicks`, and then stays put: after n updates it has climbed by
      min(n, L), where L = CountBelow(endTicks - ticks) is the number of live updates. */
  lemma {:induction false} Lifetime(f: Flight, heading: real -> Vector, n: nat)
    ensures Steps(f, heading, n).body.endTicks == f.body.endTicks
    ensures Steps(f, heading, n).body.ticks
         == f.body.ticks + Min(n, CountBelow(f.body.endTicks - f.body.ticks)) as real
  {
    if n > 0 {
      Lifetime(f, heading, n - 1);
      var g := Steps(f, heading, n - 1);
      MoveTicks(g.body, heading, g.vel);
      CountBelowSpec(f.body.endTicks - f.body.ticks, n - 1);
    }
  }

  /** Update k (counting from 0) finds the particle live, and so draws it and
      keeps it in its pool, exactly when k < CountBelow(endTicks - ticks): a
      new particle (ticks 0) is drawn ceil(endTicks) times and removed by the
      next update. */
  lemma {:induction false} LiveAt(f: Flight, heading: real -> Vector, k: nat)
    ensures Live(Steps(f, heading, k).body) <==> k < CountBelow(f.body.endTicks - f.body.ticks)
  {
    Lifetime(f, heading, k);
    CountBelowSpec(f.body.endTicks - f.body.ticks, k);
  }

  /** The alive flag falls on the first update that finds the particle past
      its end, and never rises again. */
  lemma {:induction false} AliveAfter(f: Flight, heading: real -> Vector, n: nat)
    ensures Steps(f, heading, n).isAlive
        <==> f.isAlive && (n == 0 || n <= CountBelow(f.body.endTicks - f.body.ticks))
  {
    if n > 0 {
      AliveAfter(f, heading, n - 1);
      LiveAt(f, heading, n - 1);
    }
  }

  class Particle {
    var pos: Vector
    var vel: Vector
    var size: real
    var color: Color?
    var angle: real
    var speed: real
    var slowdownRatio: real
    var targetSize: real
    var middleTicks: real
    var endTicks: real
    /** The phase colours, which `emit` writes once right after `new Particle()`
        and nothing changes afterwards. */
    const beginColor: Color?
    const middleColor: Color?
    const endColor: Color?
    var ticks: Tick
    var isAlive: bool

    function State(): Flight
      reads this
    {
      Flight(Body(pos, angle, speed, slowdownRatio, size, targetSize, middleTicks, endTicks, ticks), vel, isAlive)
    }

    /** `new Particle()`: at the origin, at rest, angle 0, speed 1, slowdown
        0.01, size 0, target size 10, middle and end ticks 20 and 60, tick 0,
        alive, with no colours. */
    constructor ()
      ensures State() == Flight(Body(Vector(0.0, 0.0), 0.0, 1.0, 0.01, 0.0, 10.0, 20.0, 60.0, 0.0), Vector(0.0, 0.0), true)
      ensures color == null && beginColor == null && middleColor == null && endColor == null
    {
      pos, vel := Vector(0.0, 0.0), Vector(0.0, 0.0);
      size, angle, speed, slowdownRatio, targetSize := 0.0, 0.0, 1.0, 0.01, 10.0;
      middleTicks, endTicks, ticks, isAlive := 20.0, 60.0, 0.0, true;
      color, beginColor, middleColor, endColor := null, null, null, null;
    }

    /** `new Particle()` followed by the field assignments of `emit`: at
        `pos` with velocity `vel`, size 0, ticks 0, alive, no colour of its
        own, and the given numbers and shared colours. */
    constructor Spawned(pos: Vector, vel: Vector, angle: real, speed: real, slowdownRatio: real,
                        targetSize: real, middleTicks: real, endTicks: real,
                        beginColor: Color?, middleColor: Color?, endColor: Color?)
      ensures State() == Flight(Body(pos, angle, speed, slowdownRatio, 0.0, targetSize, middleTicks, endTicks, 0.0), vel, true)
      ensures color == null && this.beginColor == beginColor && this.middleColor == middleColor && this.endColor == endColor
    {
      this.pos, this.vel, size, this.angle, this.speed, this.slowdownRatio := pos, vel, 0.0, angle, speed, slowdownRatio;
      this.targetSize, this.middleTicks, this.endTicks, ticks, isAlive := targetSize, middleTicks, endTicks, 0.0, true;
      color, this.beginColor, this.middleColor, this.endColor := null, beginColor, middleColor, endColor;
    }

    /** All three phase colours are set, as `emit` leaves every particle of
        an emitter with a recognised type code: then every update finds the
        colours it dereferences, however many there are. */
    predicate Colored() {
      beginColor != null && middleColor != null && endColor != null
    }

    /** The colours the next `update` dereferences are set (otherwise the
        source fails with a TypeError): none for a particle past its end, the
        begin and middle colours while growing, the middle and end ones after. */
    predicate CanUpdate()
      reads this
    {
      ticks < endTicks ==>
        middleColor != null && (if ticks < middleTicks then beginColor != null else endColor != null)
    }

    /** The colour the current phase blends from ... */
    function From(): Color?
      reads this
    {
      if ticks < middleTicks then beginColor else middleColor
    }

    /** ... and the one it blends to. */
    function To(): Color?
      reads this
    {
      if ticks < middleTicks then middleColor else endColor
    }

    /** `update`: one `Step`; `kept` is false exactly when the particle was found
        past its end (the source returns `false` then and nothing otherwise).
        A live particle's colour becomes the sparkled cache of the phase's
        blend, holding `Glow` of the tick and three fresh draws. Blending and
        sparkling write into colour caches that other particles share. */
    method Update(heading: real -> Vector, limiting: bool, rng: MathRandom) returns (kept: bool)
      requires CanUpdate() && rng.Valid()
      modifies this, rng, iset c: Color {:trigger c.r} | true
      ensures State() == Step(old(State()), heading)
      ensures kept <==> Live(old(State().body))
      ensures !kept ==> color == old(color) && rng.used == old(rng.used)
      ensures kept ==> rng.used == old(rng.used) + 3
      ensures kept ==> color != null
      ensures kept ==> color.Channels()
                       == Glow(old(PhaseRatio(ticks, middleTicks, endTicks)), old(From().Channels()), old(From().sparkleRatio),
                               old(To().Channels()), old(To().sparkleRatio),
                               rng.stream(old(rng.used)), rng.stream(old(rng.used) + 1),
                               rng.stream(old(rng.used) + 2), limiting)
    {
      kept := ticks < endTicks;
      if kept {
        color := Paint(limiting, rng);
      }
      Advance(heading);
    }

    /** The numeric part of `update`, in the source's order: move, decay the
        speed and the velocity, stop if past the end (marking the particle
        dead), else grow or shrink and count the tick. It reads no colour, and
        the colour work reads no field it writes, so `Update` may do the
        colour work first. */
    method Advance(heading: real -> Vector)
      modifies this
      ensures State() == Step(old(State()), heading)
      ensures color == old(color)
    {
      pos := Displaced(pos, heading(angle), speed, vel);
      speed := Decayed(speed, slowdownRatio);
      vel := Dragged(vel);
      if ticks >= endTicks {
        isAlive := false;
        return;
      }
      if ticks < middleTicks {
        size := Grown(size, targetSize);
      } else {
        size := Shrunk(size);
      }
      ticks := ticks + 1.0;
    }

    /** The colour work of a live `update`: `getLerped` on the phase's
        colours at the phase ratio, then `getSparkled` on the blend. */
    method Paint(limiting: bool, rng: MathRandom) returns (s: Color)
      requires CanUpdate() && ticks < endTicks && rng.Valid()
      modifies rng, iset c: Color {:trigger c.r} | true
      ensures rng.used == old(rng.used) + 3
      ensures s.Channels()
              == Glow(PhaseRatio(ticks, middleTicks, endTicks), old(From().Channels()), old(From().sparkleRatio),
                      old(To().Channels()), old(To().sparkleRatio),
                      rng.stream(old(rng.used)), rng.stream(old(rng.used) + 1),
                      rng.stream(old(rng.used) + 2), limiting)
    {
      var c: Color;
      if ticks < middleTicks {
        c := beginColor.GetLerped(middleColor, ticks / middleTicks, limiting);
      } else {
        c := middleColor.GetLerped(endColor, (ticks - middleTicks) / (endTicks - middleTicks), limiting);
      }
      s := c.GetSparkled(limiting, rng);
    }
  }

  /** The states of a list of particles, in list order. */
  ghost function States(ps: seq<Particle>): (fs: seq<Flight>)
    reads ps
    ensures |fs| == |ps|
    ensures forall i :: 0 <= i < |ps| ==> fs[i] == ps[i].State()
  {
    seq(|ps|, i requires 0 <= i < |ps| reads ps => ps[i].State())
  }

  /** Every particle of `ps` has all three phase colours. */
  predicate AllColored(ps: seq<Particle>) {
    ps == [] || (AllColored(ps[..|ps| - 1]) && ps[|ps| - 1].Colored())
  }

  /** `AllColored` holds exactly when every particle of the list is coloured. */
  lemma {:induction false} AllColoredSpec(ps: seq<Particle>)
    ensures AllColored(ps) <==> forall p :: p in ps ==> p.Colored()
  {
    if ps != [] {
      AllColoredSpec(ps[..|ps| - 1]);
      assert ps == ps[..|ps| - 1] + [ps[|ps| - 1]];
    }
  }

  /** The particles an update keeps are among those it started from, so a
      coloured list stays coloured. */
  lemma SelectColored(ps: seq<Particle>, keep: seq<bool>)
    requires |ps| == |keep|
    ensures AllColored(ps) ==> AllColored(Select(ps, keep))
  {
    AllColoredSpec(ps);
    AllColoredSpec(Select(ps, keep));
    SelectSubset(ps, keep);
  }

  /** Which of a list of states the next update finds live: exactly those
      whose lifetime (the number of live updates `Lifetime` counts) is not
      yet used up. */
  function LiveMarks(fs: seq<Flight>): (m: seq<bool>)
    ensures |m| == |fs|
    ensures forall i :: 0 <= i < |fs| ==> m[i] == Live(fs[i].body)
    ensures forall i :: 0 <= i < |fs| ==> (m[i] <==> 0 < CountBelow(fs[i].body.endTicks - fs[i].body.ticks))
  {
    seq(|fs|, i requires 0 <= i < |fs| => Live(fs[i].body))
  }

  class ParticlePool {
    var particles: seq<Particle>

    /** A pool never holds the same particle twice. */
    ghost predicate Valid()
      reads this
    {
      NoDup(particles)
    }

    /** A list whose particles all have their colours can take its next update. */
    lemma ColoredReady()
      requires AllColored(particles)
      ensures Ready()
    {
      AllColoredSpec(particles);
    }

    /** Every particle can take its next update. */
    predicate Ready()
      reads this, particles
    {
      forall p :: p in particles ==> p.CanUpdate()
    }

    /** `new ParticlePool()` without its registration (see `Engine.NewPool`). */
    constructor ()
      ensures particles == [] && Valid()
    {
      particles := [];
    }

    /** `update`: updates every particle once, in order, and splices out
        exactly those found past their end; the survivors keep their order.
        Each particle drawn takes three draws. */
    method Update(heading: real -> Vector, limiting: bool, rng: MathRandom)
      requires Valid() && Ready() && rng.Valid()
      modifies this, particles, rng, iset c: Color {:trigger c.r} | true
      ensures Valid()
      ensures particles == Select(old(particles), LiveMarks(old(States(particles))))
      ensures forall k :: 0 <= k < |old(particles)| ==> old(particles)[k].State() == Step(old(particles[k].State()), heading)
      ensures rng.used == old(rng.used) + 3 * Count(LiveMarks(old(States(particles))))
      ensures AllColored(old(particles)) ==> AllColored(particles)
    {
      ghost var ps := particles;
      ghost var before := States(ps);
      ghost var mask := LiveMarks(before);
      Sweep(heading, limiting, rng, ps, before, mask);
      SelectNoDup(ps, mask);
      SelectColored(ps, mask);
    }

    /** The loop of `update`, over the list `ps` it starts from, with
        `before` the states of `ps` and `mask` their live marks. */
    method Sweep(heading: real -> Vector, limiting: bool, rng: MathRandom,
                 ghost ps: seq<Particle>, ghost before: seq<Flight>, ghost mask: seq<bool>)
      requires particles == ps && |ps| == |before| == |mask| && NoDup(ps) && rng.Valid()
      requires forall k :: 0 <= k < |ps| ==> mask[k] == Live(before[k].body)
      requires forall k :: 0 <= k < |ps| ==> ps[k].State() == before[k] && ps[k].CanUpdate()
      modifies this, ps, rng, iset c: Color {:trigger c.r} | true
      ensures particles == Select(ps, mask)
      ensures forall k :: 0 <= k < |ps| ==> ps[k].State() == Step(before[k], heading)
      ensures rng.used == old(rng.used) + 3 * Count(mask)
    {
      ghost var j := 0;
      var i := 0;
      while i < |particles|
        invariant 0 <= j <= |ps|
        invariant i == |Select(ps[..j], mask[..j])| && particles == Select(ps[..j], mask[..j]) + ps[j..]
        invariant forall k :: 0 <= k < j ==> ps[k].State() == Step(before[k], heading)
        invariant forall k :: j <= k < |ps| ==> ps[k].State() == before[k] && ps[k].CanUpdate()
        invariant rng.used == old(rng.used) + 3 * Count(mask[..j])
        decreases |ps| - j
      {
        i := UpdateAt(i, heading, limiting, rng, ps, before, mask, j);
        j := j + 1;
      }
      assert j == |ps|;
      assert ps[..j] == ps && mask[..j] == mask;
    }

    /** One pass of `update`'s loop, on `particles[i]`: with `ps` the list on
        entry, `before` its states and `mask` their live marks, and the first
        `j` entries done, the particle at `i` is `ps[j]`; it takes its update
        and is spliced out if it was found past its end, otherwise `i` moves
        past it. The particles before it (already updated) and after it
        (still to come) are left alone. */
    method UpdateAt(i: nat, heading: real -> Vector, limiting: bool, rng: MathRandom,
                    ghost ps: seq<Particle>, ghost before: seq<Flight>, ghost mask: seq<bool>, ghost j: nat)
      returns (next: nat)
      requires j < |ps| == |before| == |mask| && NoDup(ps) && rng.Valid()
      requires forall k :: 0 <= k < |ps| ==> mask[k] == Live(before[k].body)
      requires i == |Select(ps[..j], mask[..j])| && particles == Select(ps[..j], mask[..j]) + ps[j..]
      requires forall k :: 0 <= k < j ==> ps[k].State() == Step(before[k], heading)
      requires forall k :: j <= k < |ps| ==> ps[k].State() == before[k] && ps[k].CanUpdate()
      modifies this, ps[j], rng, iset c: Color {:trigger c.r} | true
      ensures next == |Select(ps[..j + 1], mask[..j + 1])|
      ensures particles == Select(ps[..j + 1], mask[..j + 1]) + ps[j + 1..]
      ensures forall k :: 0 <= k <= j ==> ps[k].State() == Step(before[k], heading)
      ensures forall k :: j < k < |ps| ==> ps[k].State() == before[k] && ps[k].CanUpdate()
      ensures rng.used == old(rng.used) + (if mask[j] then 3 else 0)
      ensures Count(mask[..j + 1]) == Count(mask[..j]) + (if mask[j] then 1 else 0)
    {
      SpliceStep(ps, mask, j, Select(ps[..j], mask[..j]), particles);
      forall k | 0 <= k < |ps| && k != j
        ensures ps[k] != ps[j]
      {
        if k < j { assert ps[k] != ps[j]; } else { assert ps[j] != ps[k]; }
      }
      var kept := particles[i].Update(heading, limiting, rng);
      if !kept {
        particles := particles[..i] + particles[i + 1..];
        next := i;
      } else {
        next := i + 1;
      }
    }

    /** `clear`: the pool becomes empty. */
    method Clear()
      modifies this
      ensures particles == [] && Valid()
    {
      particles := [];
    }
  }
}

=== FILE: prng.dfy ===
/** The seeded xorshift128 generators that fix an emitter's template:
    `Random` of src/index.ts (unsigned shifts, output as uint32) and
    `Random` of src/ppe/index.ts (signed shifts, output as int32). */
module Prng {
  import opened Util
  import opened Hash
  import opened Ambient

  /** The four 32-bit state words. */
  datatype State = State(x: bv32, y: bv32, z: bv32, w: bv32)

  /** `t = x ^ (x << 11)`, the part of the old x that enters the new w. */
  function Tx(x: bv32): bv32 {
    x ^ (x << 11)
  }

  /** The new w of `getToMaxInt`: `w ^ (w >>> 19) ^ (t ^ (t >>> 8))`. */
  function Mix(w: bv32, t: bv32): bv32 {
    w ^ (w >> 19) ^ (t ^ (t >> 8))
  }

  /** One xorshift128 step with logical shifts (`getToMaxInt`):
      x, y, z take the old y, z, w. */
  function Next(s: State): State {
    State(s.y, s.z, s.w, Mix(s.w, Tx(s.x)))
  }

  /** `n` steps. */
  function Advance(s: State, n: nat): State {
    if n == 0 then s else Next(Advance(s, n - 1))
  }

  /** Fixed x, y, z of `setSeed` and its warm-up length. */
  const SEED_X: bv32 := 123456789
  const SEED_Y: bv32 := 362436069
  const SEED_Z: bv32 := 521288629
  const WARMUP: nat := 32

  /** The state `setSeed(w)` leaves: a function of the seed word alone. */
  function Seeded(w: bv32): State {
    Advance(State(SEED_X, SEED_Y, SEED_Z, w), WARMUP)
  }

  lemma {:induction false} AdvanceAdd(s: State, m: nat, n: nat)
    ensures Advance(Advance(s, m), n) == Advance(s, m + n)
  {
    if n > 0 {
      AdvanceAdd(s, m, n - 1);
    }
  }

  /** Seeds that agree modulo 2^32 give the same generator (`w >>> 0`). */
  lemma SeedModulo(a: int, b: int)
    requires a % TWO32 == b % TWO32
    ensures Seeded(ToUint32(a)) == Seeded(ToUint32(b))
  {
  }

  /** A drawn word over 0xffffffff: a real in [0,1], 0 and 1 at the extreme words. */
  function Unit(w: bv32): (u: real)
    ensures 0.0 <= u <= 1.0
    ensures w == 0 ==> u == 0.0
    ensures w == 0xFFFF_FFFF ==> u == 1.0
  {
    w as int as real / 4294967295.0
  }

  /** `get(lo, hi)` once the word is drawn and divided by 0xffffffff (u):
      lo + (hi - lo) * u, which runs from lo to hi. */
  function Scaled(u: real, lo: real, hi: real): (r: real)
    ensures 0.0 <= u <= 1.0 && lo <= hi ==> lo <= r <= hi
    ensures u == 0.0 ==> r == lo
    ensures u == 1.0 ==> r == hi
  {
    var d := hi - lo;
    if 0.0 <= u <= 1.0 && 0.0 <= d then
      UnitScale(u, d);
      assert lo <= u * d + lo <= d + lo;
      u * d + lo
    else
      u * d + lo
  }

  lemma UnitScale(u: real, d: real)
    requires 0.0 <= u <= 1.0 && 0.0 <= d
    ensures 0.0 <= u * d <= d
  {
    assert u * d <= 1.0 * d;
  }

  /** The n values `get()` returns next, from state s: each in [0,1]. */
  function Units(s: State, n: nat): (us: seq<real>)
    ensures |us| == n
    ensures forall i :: 0 <= i < n ==> 0.0 <= us[i] <= 1.0
  {
    seq(n, i requires 0 <= i < n => Unit(Advance(s, i + 1).w))
  }

  /** The seed word of the unseeded path, `Math.floor(Math.random() * 0xffffffff) >>> 0`. */
  function EntropyWord(u: real): bv32 {
    ToUint32((u * 4294967295.0).Floor)
  }

  class Random {
    var x: bv32
    var y: bv32
    var z: bv32
    var w: bv32

    function Words(): State
      reads this
    {
      State(x, y, z, w)
    }

    /** `new Random()`: seeds itself from one ambient draw. */
    constructor (rng: MathRandom)
      requires rng.Valid()
      modifies rng
      ensures rng.used == old(rng.used) + 1
      ensures Words() == Seeded(EntropyWord(rng.stream(old(rng.used))))
    {
      new;
      var u := rng.Next();
      var seedWord := (u * 4294967295.0).Floor;
      SetSeed(seedWord);
    }

    /** `setSeed(w)` with the default x, y, z and 32 warm-up steps. */
    method SetSeed(seed: int)
      modifies this
      ensures Words() == Seeded(ToUint32(seed))
    {
      w := ToUint32(seed);
      x := SEED_X;
      y := SEED_Y;
      z := SEED_Z;
      ghost var start := Words();
      var i := 0;
      while i < WARMUP
        invariant 0 <= i <= WARMUP
        invariant Words() == Advance(start, i)
      {
        var _ := GetToMaxInt();
        i := i + 1;
      }
    }

    /** `getToMaxInt`: one step, returning the new w as an unsigned word. */
    method GetToMaxInt() returns (r: bv32)
      modifies this
      ensures Words() == Next(old(Words()))
      ensures r == w
    {
      var t := Tx(x);
      x := y;
      y := z;
      z := w;
      w := Mix(w, t);
      r := w;
    }

    /** `get(fromOrTo = 1, to = null)`: with one bound, the range is [0, fromOrTo]. */
    method Get(fromOrTo: real, to: Option<real>) returns (r: real)
      modifies this
      ensures Words() == Next(old(Words()))
      ensures r == if to.None? then Scaled(Unit(w), 0.0, fromOrTo) else Scaled(Unit(w), fromOrTo, to.value)
    {
      var lo, hi := fromOrTo, 0.0;
      if to.None? {
        lo, hi := 0.0, fromOrTo;
      } else {
        hi := to.value;
      }
      var v := GetToMaxInt();
      var u := Unit(v);
      r := Scaled(u, lo, hi);
    }

    /** `getForParam`: `get(0.5, 1.5)`, the jitter factor of every template field. */
    method GetForParam() returns (r: real)
      modifies this
      ensures Words() == Next(old(Words()))
      ensures r == Unit(w) + 0.5
      ensures 0.5 <= r <= 1.5
    {
      r := Get(0.5, Some(1.5));
    }
  }

  // ----- the generator of src/ppe/index.ts -----

  /** JavaScript's `>>` on the int32 that `v` encodes: shifts in copies of the sign bit. */
  function Sar(v: bv32, k: bv32): bv32
    requires k < 32
  {
    (v >> k) | ((0 - (v >> 31)) & !(0xFFFF_FFFF >> k))
  }

  /** The new w of the legacy `getInt`: `(w ^ (w >> 19)) ^ (t ^ (t >> 8))`. */
  function LegacyMix(w: bv32, t: bv32): bv32 {
    (w ^ Sar(w, 19)) ^ (t ^ Sar(t, 8))
  }

  /** One step of the legacy generator (`getInt`): the same rotation, signed shifts. */
  function LegacyNext(s: State): State {
    State(s.y, s.z, s.w, LegacyMix(s.w, Tx(s.x)))
  }

  /** The signed 32-bit value a word encodes. */
  function Signed(v: bv32): (r: int)
    ensures -TWO31 <= r < TWO31
  {
    var n := v as int;
    if n < TWO31 then n else n - TWO32
  }

  /** `get01` once the word is drawn: the signed value over 0x7fffffff. */
  function Get01Of(w: bv32): (r: real)
    ensures -2147483648.0 / 2147483647.0 <= r <= 1.0
  {
    Signed(w) as real / 2147483647.0
  }

  /** `get01` is not confined to [0,1]: half of all words give a negative value,
      one gives a value below -1. */
  lemma Get01Negative()
    ensures Get01Of(0x8000_0000) < -1.0
    ensures Get01Of(0xFFFF_FFFF) < 0.0
  {
  }

  /** The n values `get01` returns next from state s. */
  function LegacyUnits(s: State, n: nat): (us: seq<real>)
    ensures |us| == n
    ensures forall i :: 0 <= i < n ==> -2.0 <= us[i] <= 1.0
  {
    seq(n, i requires 0 <= i < n => Get01Of(LegacyAdvance(s, i + 1).w))
  }

  function LegacyAdvance(s: State, n: nat): State {
    if n == 0 then s else LegacyNext(LegacyAdvance(s, n - 1))
  }

  class LegacyRandom {
    var x: bv32
    var y: bv32
    var z: bv32
    var w: bv32

    function Words(): State
      reads this
    {
      State(x, y, z, w)
    }

    /** A generator in the int32 state its (unmodelled) `setSeed` produced. */
    constructor (s: State)
      ensures Words() == s
    {
      x, y, z, w := s.x, s.y, s.z, s.w;
    }

    /** `getInt`: one step, returning the new w as a signed int32. */
    method GetInt() returns (r: int)
      modifies this
      ensures Words() == LegacyNext(old(Words()))
      ensures r == Signed(w)
    {
      var t := Tx(x);
      x := y;
      y := z;
      z := w;
      w := LegacyMix(w, t);
      r := Signed(w);
    }

    /** `get01`: `getInt() / 0x7fffffff`. */
    method Get01() returns (r: real)
      modifies this
      ensures Words() == LegacyNext(old(Words()))
      ensures r == Get01Of(w)
    {
      var i := GetInt();
      r := i as real / 2147483647.0;
    }

    /** `getForParam`: `get01() + 0.5`, which lies in [-0.5000000005, 1.5]. */
    method GetForParam() returns (r: real)
      modifies this
      ensures Words() == LegacyNext(old(Words()))
      ensures r == Get01Of(w) + 0.5
    {
      r := Get01();
      r := r + 0.5;
    }
  }
}

=== FILE: registry.dfy ===
/** The module-level state of src/index.ts (`options`, `emitters`, `seed`,
    `pools`, `defaultPool`) and the functions over it: `emit`, `update`,
    `setSeed`, `reset`, `clear`, `clearPools` and `setOptions`. */
module Registry {
  import opened Util
  import opened Ambient
  import opened Hash
  import opened Prng
  import opened Lifecycle
  import opened Colors
  import opened Templates
  import opened Particles
  import opened Emitters

  /** The generator a first `emit` of `name` seeds: `setSeed(seed + getHashFromString(name))`. */
  function SeedState(seed: int, name: string): State {
    Seeded(ToUint32(seed + NameHash(Utf16(name))))
  }

  /** The number of live marks of every pool together. */
  function LiveTotal(befores: seq<seq<Flight>>): nat {
    if befores == [] then 0
    else LiveTotal(befores[..|befores| - 1]) + Count(LiveMarks(befores[|befores| - 1]))
  }

  /** Lists that hold no particle twice and share no particle. */
  ghost predicate Separate(ls: seq<seq<Particle>>) {
    (forall i :: 0 <= i < |ls| ==> NoDup(ls[i]))
    && (forall i, j :: 0 <= i < j < |ls| ==> Disjoint(ls[i], ls[j]))
  }

  /** Appending particles found in none of the lists to one of them keeps
      the lists separate. */
  lemma Extend(ls: seq<seq<Particle>>, t: nat, grown: seq<Particle>, m: nat)
    requires Separate(ls) && t < |ls| && NoDup(grown)
    requires m <= |grown| && grown[..m] == ls[t]
    requires forall k, i :: m <= k < |grown| && 0 <= i < |ls| ==> grown[k] !in ls[i]
    ensures Separate(ls[t := grown])
  {
    var ns := ls[t := grown];
    forall i, j | 0 <= i < j < |ns|
      ensures Disjoint(ns[i], ns[j])
    {
      if i == t || j == t {
        var o := if i == t then j else i;
        forall p | p in grown
          ensures p !in ls[o]
        {
          var k :| 0 <= k < |grown| && grown[k] == p;
          if k < m {
            assert p in ls[t];
            if i == t { assert Disjoint(ls[t], ls[o]); } else { assert Disjoint(ls[o], ls[t]); }
          }
        }
      }
    }
  }

  /** The particle lists of the pools `ps`. */
  ghost function ListsOf(ps: seq<ParticlePool>): (ls: seq<seq<Particle>>)
    reads ps
    ensures |ls| == |ps|
    ensures forall i :: 0 <= i < |ps| ==> ls[i] == ps[i].particles
  {
    seq(|ps|, i requires 0 <= i < |ps| reads ps => ps[i].particles)
  }

  /** Every cached emitter holds the template and colours its origin determines. */
  ghost predicate AllBuilt(es: map<string, Emitter>) {
    forall e :: e in es.Values ==> e.Built()
  }

  /** Caching one more built emitter keeps every cached emitter built. */
  lemma CacheBuilt(es: map<string, Emitter>, name: string, e: Emitter)
    requires AllBuilt(es) && e.Built()
    ensures AllBuilt(es[name := e])
  {
    forall d | d in es[name := e].Values
      ensures d.Built()
    {
      var n :| n in es[name := e] && es[name := e][n] == d;
      if n != name {
        assert es[n] in es.Values;
      }
    }
  }

  /** Distinct pools with separate particle lists, `d` (when set) among them. */
  ghost predicate Registered(ps: seq<ParticlePool>, d: ParticlePool?)
    reads ps
  {
    NoDup(ps) && Separate(ListsOf(ps)) && (d != null ==> d in ps)
  }

  /** A new, empty pool joins the registered ones. */
  lemma Register(ps: seq<ParticlePool>, d: ParticlePool?, p: ParticlePool)
    requires Registered(ps, d) && p !in ps && p.particles == []
    ensures Registered(ps + [p], d)
  {
    var ls := ListsOf(ps + [p]);
    assert ls == ListsOf(ps) + [[]];
  }

  /** Keeping a selection of each of separate lists keeps them separate. */
  lemma Sifted(ls: seq<seq<Particle>>, bs: seq<seq<Flight>>, ns: seq<seq<Particle>>)
    requires |ls| == |bs| == |ns| && Separate(ls)
    requires forall i :: 0 <= i < |ls| ==> |bs[i]| == |ls[i]| && ns[i] == Select(ls[i], LiveMarks(bs[i]))
    ensures Separate(ns)
  {
    forall i | 0 <= i < |ls|
      ensures NoDup(ns[i]) && forall p :: p in ns[i] ==> p in ls[i]
    {
      SelectNoDup(ls[i], LiveMarks(bs[i]));
      SelectSubset(ls[i], LiveMarks(bs[i]));
    }
  }

  /** Keeping a selection of each of coloured lists keeps them coloured. */
  lemma SiftedColored(ls: seq<seq<Particle>>, bs: seq<seq<Flight>>, ns: seq<seq<Particle>>)
    requires |ls| == |bs| == |ns|
    requires forall i :: 0 <= i < |ls| ==> |bs[i]| == |ls[i]| && ns[i] == Select(ls[i], LiveMarks(bs[i]))
    ensures (forall i :: 0 <= i < |ls| ==> AllColored(ls[i])) ==> forall i :: 0 <= i < |ns| ==> AllColored(ns[i])
  {
    forall i | 0 <= i < |ls|
      ensures AllColored(ls[i]) ==> AllColored(ns[i])
    {
      SelectColored(ls[i], LiveMarks(bs[i]));
    }
  }

  /** Each of a list of states after one update. */
  function StepAll(fs: seq<Flight>, heading: real -> Vector): (gs: seq<Flight>)
    ensures |gs| == |fs|
    ensures forall k :: 0 <= k < |fs| ==> gs[k] == Step(fs[k], heading)
  {
    seq(|fs|, k requires 0 <= k < |fs| => Step(fs[k], heading))
  }

  /** Every particle of the list can take its next update. */
  ghost predicate Updatable(l: seq<Particle>)
    reads l
  {
    forall k :: 0 <= k < |l| ==> l[k].CanUpdate()
  }

  /** A pool's `update`, stated over the list `l` it starts from and the
      states `b` of that list. */
  method Run(pool: ParticlePool, heading: real -> Vector, limiting: bool, rng: MathRandom,
             ghost l: seq<Particle>, ghost b: seq<Flight>)
    requires pool.Valid() && pool.particles == l && States(l) == b && Updatable(l) && rng.Valid()
    modifies pool, l, rng, iset c: Color {:trigger c.r} | true
    ensures rng.Valid() && pool.particles == Select(l, LiveMarks(b)) && States(l) == StepAll(b, heading)
    ensures rng.used == old(rng.used) + 3 * Count(LiveMarks(b))
  {
    pool.Update(heading, limiting, rng);
    assert States(l) == StepAll(b, heading);
  }

  /** No particle of another of separate lists is in list `i`. */
  lemma Apart(ls: seq<seq<Particle>>, i: nat)
    requires Separate(ls) && i < |ls|
    ensures forall j, p :: 0 <= j < |ls| && j != i && p in ls[j] ==> p !in ls[i]
  {
    forall j, p | 0 <= j < |ls| && j != i && p in ls[j]
      ensures p !in ls[i]
    {
      if j < i {
        assert Disjoint(ls[j], ls[i]);
      } else {
        assert Disjoint(ls[i], ls[j]);
      }
    }
  }

  /** The live total of a prefix one longer. */
  lemma LiveTotalSnoc(bs: seq<seq<Flight>>, i: nat)
    requires i < |bs|
    ensures LiveTotal(bs[..i + 1]) == LiveTotal(bs[..i]) + Count(LiveMarks(bs[i]))
  {
    assert bs[..i + 1][..i] == bs[..i];
  }

  class Engine {
    /** `options.scaleRatio` and `options.isLimitingColors` (the canvas is not modelled). */
    var scaleRatio: real
    var limiting: bool
    var emitters: map<string, Emitter>
    var seed: int
    var pools: seq<ParticlePool>
    /** `undefined` until the first `emit` without a pool or `clearPools`. */
    var defaultPool: ParticlePool?

    /** The registered pools are distinct, hold no particle twice and share
        no particle; the default pool is one of them. */
    ghost predicate Valid()
      reads this, pools
    {
      Registered(pools, defaultPool)
    }

    /** The particle lists of the registered pools. */
    ghost function Lists(): (ls: seq<seq<Particle>>)
      reads this, pools
      ensures |ls| == |pools|
      ensures forall i :: 0 <= i < |pools| ==> ls[i] == pools[i].particles
    {
      ListsOf(pools)
    }

    /** Every particle of a registered pool. */
    ghost function Members(): (ms: set<Particle>)
      reads this, pools
      ensures forall i, p :: 0 <= i < |pools| && p in pools[i].particles ==> p in ms
    {
      set i, p | 0 <= i < |pools| && p in pools[i].particles :: p
    }

    /** The states of the particles of every registered pool. */
    ghost function Befores(): (bs: seq<seq<Flight>>)
      reads this, pools, Members()
      ensures |bs| == |pools|
      ensures forall i :: 0 <= i < |pools| ==> bs[i] == States(pools[i].particles)
    {
      var ps, ms := pools, Members();
      seq(|ps|, i requires 0 <= i < |ps| && (forall p :: p in ps[i].particles ==> p in ms) reads ps, ms =>
        States(ps[i].particles))
    }

    /** Every particle of every registered pool has all three phase colours. */
    ghost predicate PoolsColored()
      reads this, pools
    {
      forall i :: 0 <= i < |pools| ==> AllColored(pools[i].particles)
    }

    /** A pool of particles with all their colours can take its next update. */
    lemma ColoredReady()
      requires PoolsColored()
      ensures Ready()
    {
      forall p | p in Members()
        ensures p.CanUpdate()
      {
        var i :| 0 <= i < |pools| && p in pools[i].particles;
        AllColoredSpec(pools[i].particles);
      }
    }

    /** `Ready`, pool by pool. */
    lemma ReadyUpdatable()
      requires Ready()
      ensures forall j :: 0 <= j < |pools| ==> Updatable(pools[j].particles)
    {
      forall j, k | 0 <= j < |pools| && 0 <= k < |pools[j].particles|
        ensures pools[j].particles[k].CanUpdate()
      {
        assert pools[j].particles[k] in Members();
      }
    }

    /** Every particle of every registered pool can take its next update. */
    ghost predicate Ready()
      reads this, pools, Members()
    {
      forall p :: p in Members() ==> p.CanUpdate()
    }

    /** The module's initial state: default options, no emitters, seed 0, no pools. */
    constructor ()
      ensures Valid() && AllBuilt(emitters)
      ensures scaleRatio == 1.0 && !limiting && emitters == map[] && seed == 0
      ensures pools == [] && defaultPool == null
    {
      scaleRatio, limiting := 1.0, false;
      emitters, seed := map[], 0;
      pools, defaultPool := [], null;
    }

    /** `setOptions`: every option given replaces the current one. */
    method SetOptions(scaleRatio: Option<real>, limiting: Option<bool>)
      modifies this
      ensures this.scaleRatio == scaleRatio.GetOr(old(this.scaleRatio))
      ensures this.limiting == limiting.GetOr(old(this.limiting))
      ensures emitters == old(emitters) && seed == old(seed) && pools == old(pools) && defaultPool == old(defaultPool)
    {
      if scaleRatio.Some? {
        this.scaleRatio := scaleRatio.value;
      }
      if limiting.Some? {
        this.limiting := limiting.value;
      }
    }

    /** `new ParticlePool()`: an empty pool that registers itself at the end of `pools`. */
    method NewPool() returns (p: ParticlePool)
      requires Valid()
      modifies this
      ensures Valid()
      ensures fresh(p) && p.particles == [] && pools == old(pools) + [p]
      ensures scaleRatio == old(scaleRatio) && limiting == old(limiting)
      ensures emitters == old(emitters) && seed == old(seed) && defaultPool == old(defaultPool)
    {
      p := new ParticlePool();
      Register(pools, defaultPool, p);
      pools := pools + [p];
    }

    /** `setSeed(seed)`: only emitters made later see the new seed. */
    method SetSeed(seed: int)
      modifies this
      ensures this.seed == seed
      ensures scaleRatio == old(scaleRatio) && limiting == old(limiting)
      ensures emitters == old(emitters) && pools == old(pools) && defaultPool == old(defaultPool)
    {
      this.seed := seed;
    }

    /** The emitter `emit` uses for `name`: the cached one, or else a new one
        made with `o` from a generator seeded with seed + hash of the name
        (its unseeded construction takes one ambient draw first). */
    method EmitterFor(name: string, o: EmitOptions, rng: MathRandom) returns (e: Emitter)
      requires Valid() && AllBuilt(emitters) && rng.Valid()
      modifies this, rng
      ensures Valid() && AllBuilt(emitters) && name in emitters && e == emitters[name] && e.Built() && rng.Valid()
      ensures name in old(emitters) ==> emitters == old(emitters) && rng.used == old(rng.used)
      ensures name !in old(emitters) ==>
                fresh(e) && emitters == old(emitters)[name := e] && rng.used == old(rng.used) + 1
                && e.origin == Origin(TypeCode(name), o, scaleRatio, SeedState(seed, name))
      ensures scaleRatio == old(scaleRatio) && limiting == old(limiting) && seed == old(seed)
      ensures pools == old(pools) && defaultPool == old(defaultPool)
    {
      if name in emitters {
        e := emitters[name];
        assert e in emitters.Values;
        return;
      }
      ghost var ps, d := pools, defaultPool;
      assert Registered(ps, d);
      e := NewEmitter(name, o, rng);
      CacheBuilt(emitters, name, e);
      emitters := emitters[name := e];
      assert Registered(ps, d);
    }

    /** The uncached branch of `emit`: `new Random()`, then
        `setSeed(seed + getHashFromString(name))`, then `new Emitter(name[0], o, random)`. */
    method NewEmitter(name: string, o: EmitOptions, rng: MathRandom) returns (e: Emitter)
      requires rng.Valid()
      modifies rng
      ensures fresh(e) && rng.Valid() && rng.used == old(rng.used) + 1
      ensures e.origin == Origin(TypeCode(name), o, scaleRatio, SeedState(seed, name)) && e.Built()
    {
      var random := new Random(rng);
      var hash := GetHashFromString(name);
      random.SetSeed(seed + hash);
      assert random.Words() == SeedState(seed, name);
      e := new Emitter(TypeCode(name), o, random, scaleRatio, limiting);
    }

    /** `emit(name, x, y, angle, o, pool)`, with `null` standing for an omitted
        pool: the default pool is made on first need; the name's emitter
        (see `EmitterFor`) spawns into the pool with the velocity of `o`,
        0 where absent. No other pool changes. The ghost results name the
        pool, its list before, the emitter and the index of its first draw. */
    method Emit(name: string, x: real, y: real, angle: real, o: EmitOptions, pool: ParticlePool?, rng: MathRandom)
      returns (ghost target: ParticlePool, ghost before: seq<Particle>, ghost e: Emitter, ghost u0: nat)
      requires Valid() && AllBuilt(emitters) && rng.Valid()
      requires pool != null ==> NoDup(pool.particles)
      modifies this, pool, defaultPool, rng
      ensures Valid() && AllBuilt(emitters) && rng.Valid()
      ensures scaleRatio == old(scaleRatio) && limiting == old(limiting) && seed == old(seed)
      ensures pool == null && old(defaultPool) == null ==>
                fresh(defaultPool) && pools == old(pools) + [defaultPool]
      ensures pool != null || old(defaultPool) != null ==>
                defaultPool == old(defaultPool) && pools == old(pools)
      ensures name in emitters
      ensures name in old(emitters) ==> emitters == old(emitters)
      ensures name !in old(emitters) ==>
                fresh(emitters[name]) && emitters == old(emitters)[name := emitters[name]]
                && emitters[name].origin == Origin(TypeCode(name), o, scaleRatio, SeedState(seed, name))
      ensures target == if pool != null then pool else defaultPool
      ensures before == if pool != null then old(pool.particles)
                        else if old(defaultPool) != null then old(defaultPool.particles) else []
      ensures e == emitters[name] && u0 == old(rng.used) + (if name in old(emitters) then 0 else 1)
      ensures e.Spawned(target.particles, before, x, y, angle, o.velX.GetOr(0.0), o.velY.GetOr(0.0), rng.stream, u0)
      ensures rng.used == u0 + e.LeadDraws() + 5 * e.Spawns(rng.stream(u0))
      ensures forall k :: |before| <= k < |target.particles| ==> fresh(target.particles[k])
      ensures forall q :: q in old(pools) && q != target ==> q.particles == old(q.particles)
    {
      u0 := old(rng.used) + (if name in old(emitters) then 0 else 1);
      var t := Target(pool);
      target, before := t, t.particles;
      e := EmitWith(name, x, y, angle, o, t, rng, u0);
    }

    /** `emit` once the pool is chosen: the name's emitter (see
        `EmitterFor`) spawns into `target` with the velocity of `o`, its
        particles' draws starting at `u0`. */
    method EmitWith(name: string, x: real, y: real, angle: real, o: EmitOptions, target: ParticlePool, rng: MathRandom,
                    ghost u0: nat)
      returns (ghost e: Emitter)
      requires Valid() && AllBuilt(emitters) && rng.Valid() && NoDup(target.particles)
      requires u0 == rng.used + (if name in emitters then 0 else 1)
      modifies this, target, rng
      ensures Valid() && AllBuilt(emitters) && rng.Valid()
      ensures scaleRatio == old(scaleRatio) && limiting == old(limiting) && seed == old(seed)
      ensures pools == old(pools) && defaultPool == old(defaultPool)
      ensures name in emitters
      ensures name in old(emitters) ==> emitters == old(emitters)
      ensures name !in old(emitters) ==>
                fresh(emitters[name]) && emitters == old(emitters)[name := emitters[name]]
                && emitters[name].origin == Origin(TypeCode(name), o, scaleRatio, SeedState(seed, name))
      ensures e == emitters[name]
      ensures e.Spawned(target.particles, old(target.particles), x, y, angle, o.velX.GetOr(0.0), o.velY.GetOr(0.0), rng.stream, u0)
      ensures rng.used == u0 + e.LeadDraws() + 5 * e.Spawns(rng.stream(u0))
      ensures forall k :: |old(target.particles)| <= k < |target.particles| ==> fresh(target.particles[k])
    {
      var em := EmitterFor(name, o, rng);
      assert rng.used == u0;
      EmitInto(em, x, y, angle, o.velX.GetOr(0.0), o.velY.GetOr(0.0), target, rng);
      e := em;
    }

    /** The pool `emit` spawns into: the given one, else the default pool,
        made and registered if there is none yet. */
    method Target(pool: ParticlePool?) returns (target: ParticlePool)
      requires Valid()
      requires pool != null ==> NoDup(pool.particles)
      modifies this
      ensures Valid() && NoDup(target.particles)
      ensures pool != null ==> target == pool
      ensures pool == null && old(defaultPool) != null ==> target == old(defaultPool)
      ensures pool == null && old(defaultPool) == null ==> fresh(target) && target.particles == []
      ensures pool == null && old(defaultPool) == null ==> defaultPool == target && pools == old(pools) + [target]
      ensures pool != null || old(defaultPool) != null ==> defaultPool == old(defaultPool) && pools == old(pools)
      ensures scaleRatio == old(scaleRatio) && limiting == old(limiting) && seed == old(seed)
      ensures emitters == old(emitters)
    {
      if pool != null {
        target := pool;
      } else if defaultPool != null {
        target := defaultPool;
        var t :| 0 <= t < |pools| && pools[t] == target;
        assert Lists()[t] == target.particles;
      } else {
        target := NewPool();
        defaultPool := target;
      }
    }

    /** `emitter.emit(...)` into `target`, which keeps the pools separate:
        the new particles are fresh. */
    method EmitInto(e: Emitter, x: real, y: real, angle: real, velX: real, velY: real,
                    target: ParticlePool, rng: MathRandom)
      requires Valid() && rng.Valid() && NoDup(target.particles)
      modifies target, rng
      ensures Valid() && rng.Valid()
      ensures e.Spawned(target.particles, old(target.particles), x, y, angle, velX, velY, rng.stream, old(rng.used))
      ensures rng.used == old(rng.used) + e.LeadDraws() + 5 * e.Spawns(rng.stream(old(rng.used)))
      ensures forall k :: |old(target.particles)| <= k < |target.particles| ==> fresh(target.particles[k])
    {
      ghost var others := Lists();
      ghost var m := |target.particles|;
      e.Emit(x, y, angle, velX, velY, target, rng);
      if target in pools {
        var t :| 0 <= t < |pools| && pools[t] == target;
        assert forall i :: 0 <= i < |pools| && i != t ==> pools[i] != target;
        Extend(others, t, target.particles, m);
        assert Lists() == others[t := target.particles];
      } else {
        assert Lists() == others;
      }
    }

    /** `update`: every registered pool in turn takes its `update`: each
        keeps exactly its particles found live, in order, every particle of
        every pool takes one `Step`, and each live one takes three draws. */
    method Update(heading: real -> Vector, rng: MathRandom)
      requires Valid() && Ready() && rng.Valid()
      modifies pools, Members(), rng, iset c: Color {:trigger c.r} | true
      ensures Valid()
      ensures forall i :: 0 <= i < |pools| ==>
                pools[i].particles == Select(old(Lists())[i], LiveMarks(old(Befores())[i]))
      ensures forall i :: 0 <= i < |pools| ==> States(old(Lists())[i]) == StepAll(old(Befores())[i], heading)
      ensures rng.used == old(rng.used) + 3 * LiveTotal(old(Befores()))
      ensures old(PoolsColored()) ==> PoolsColored()
    {
      ghost var ls, bs := Lists(), Befores();
      Sweep(heading, rng, ls, bs);
      SiftedColored(ls, bs, Lists());
    }

    /** The loop of `update`, over the pools' lists `ls` and their states `bs`. */
    method Sweep(heading: real -> Vector, rng: MathRandom, ghost ls: seq<seq<Particle>>, ghost bs: seq<seq<Flight>>)
      requires Valid() && Ready() && rng.Valid() && ls == Lists() && bs == Befores()
      modifies pools, Members(), rng, iset c: Color {:trigger c.r} | true
      ensures Valid()
      ensures forall i :: 0 <= i < |pools| ==> pools[i].particles == Select(ls[i], LiveMarks(bs[i]))
      ensures forall i :: 0 <= i < |pools| ==> States(ls[i]) == StepAll(bs[i], heading)
      ensures rng.used == old(rng.used) + 3 * LiveTotal(bs)
    {
      ReadyUpdatable();
      var i := 0;
      while i < |pools|
        invariant 0 <= i <= |pools| && |ls| == |bs| == |pools| && rng.Valid()
        invariant forall j :: 0 <= j < |pools| ==> |bs[j]| == |ls[j]|
        invariant forall j :: 0 <= j < i ==> pools[j].particles == Select(ls[j], LiveMarks(bs[j]))
        invariant forall j :: i <= j < |pools| ==> pools[j].particles == ls[j]
        invariant forall j :: 0 <= j < i ==> States(ls[j]) == StepAll(bs[j], heading)
        invariant forall j :: i <= j < |ls| ==> States(ls[j]) == bs[j] && Updatable(ls[j])
        invariant rng.used == old(rng.used) + 3 * LiveTotal(bs[..i])
      {
        UpdatePool(i, heading, rng, ls, bs);
        LiveTotalSnoc(bs, i);
        i := i + 1;
      }
      assert bs[..i] == bs;
      ghost var ns := Lists();
      Sifted(ls, bs, ns);
      assert Registered(pools, defaultPool);
    }

    /** One pass of `update`'s loop: pool `i` takes its `update`; with the
        pools separate, no other pool and no particle of another pool changes. */
    method UpdatePool(i: nat, heading: real -> Vector, rng: MathRandom,
                      ghost ls: seq<seq<Particle>>, ghost bs: seq<seq<Flight>>)
      requires i < |pools| && |ls| == |bs| == |pools| && rng.Valid()
      requires NoDup(pools) && Separate(ls)
      requires forall j :: 0 <= j < |pools| ==> |bs[j]| == |ls[j]|
      requires forall j :: 0 <= j < i ==> pools[j].particles == Select(ls[j], LiveMarks(bs[j]))
      requires forall j :: i <= j < |pools| ==> pools[j].particles == ls[j]
      requires forall j :: 0 <= j < i ==> States(ls[j]) == StepAll(bs[j], heading)
      requires forall j :: i <= j < |ls| ==> States(ls[j]) == bs[j] && Updatable(ls[j])
      modifies pools[i], ls[i], rng, iset c: Color {:trigger c.r} | true
      ensures rng.Valid()
      ensures forall j :: 0 <= j < i + 1 ==> pools[j].particles == Select(ls[j], LiveMarks(bs[j]))
      ensures forall j :: i + 1 <= j < |pools| ==> pools[j].particles == ls[j]
      ensures forall j :: 0 <= j < i + 1 ==> States(ls[j]) == StepAll(bs[j], heading)
      ensures forall j :: i + 1 <= j < |ls| ==> States(ls[j]) == bs[j] && Updatable(ls[j])
      ensures rng.used == old(rng.used) + 3 * Count(LiveMarks(bs[i]))
    {
      var pool := pools[i];
      assert forall j :: 0 <= j < |pools| && j != i ==> pools[j] != pool;
      Apart(ls, i);
      Run(pool, heading, limiting, rng, ls[i], bs[i]);
      forall j | 0 <= j < |ls| && j != i
        ensures States(ls[j]) == old(States(ls[j])) && Updatable(ls[j]) == old(Updatable(ls[j]))
      {
        forall k | 0 <= k < |ls[j]|
          ensures ls[j][k].State() == old(ls[j][k].State()) && ls[j][k].CanUpdate() == old(ls[j][k].CanUpdate())
        {
          assert ls[j][k] in ls[j];
        }
        assert States(ls[j]) == old(States(ls[j]));
      }
    }

    /** `clear`: every registered pool is emptied. */
    method Clear()
      requires Valid()
      modifies pools
      ensures Valid()
      ensures forall i :: 0 <= i < |pools| ==> pools[i].particles == []
    {
      var i := 0;
      while i < |pools|
        invariant 0 <= i <= |pools|
        invariant forall j :: 0 <= j < i ==> pools[j].particles == []
        invariant Valid()
      {
        pools[i].Clear();
        i := i + 1;
      }
    }

    /** `reset`: forgets every emitter and empties every registered pool. */
    method Reset()
      requires Valid()
      modifies this, pools
      ensures Valid() && AllBuilt(emitters) && emitters == map[]
      ensures forall i :: 0 <= i < |pools| ==> pools[i].particles == []
      ensures pools == old(pools) && defaultPool == old(defaultPool) && seed == old(seed)
      ensures scaleRatio == old(scaleRatio) && limiting == old(limiting)
    {
      emitters := map[];
      Clear();
    }

    /** `clearPools`: the registered pools are dropped and a new, empty
        default pool is made, which registers itself: exactly one pool. */
    method ClearPools()
      modifies this
      ensures Valid()
      ensures fresh(defaultPool) && pools == [defaultPool] && defaultPool.particles == []
      ensures emitters == old(emitters) && seed == old(seed)
      ensures scaleRatio == old(scaleRatio) && limiting == old(limiting)
    {
      pools, defaultPool := [], null;
      var p := NewPool();
      defaultPool := p;
    }
  }
}

=== FILE: templates.dfy ===
/** The numbers an `Emitter` fixes once per pattern name, and the particle
    its `emit` builds from them, shared by both engine versions: the
    constructor's per-type table, the caller's overrides and scales, the
    jitter factors drawn from the seeded generator, and the spawn jitter
    drawn from `Math.random`. */
module Templates {
  import opened Util
  import opened Lifecycle

  /** `Math.PI`. */
  const PI: real := 3.141592653589793

  /** The saturation, value and sparkle ratio of a table colour; its hue is the emitter's. */
  datatype Hsv = Hsv(saturation: real, value: real, sparkleRatio: real)

  /** The begin, middle and end colours of a type. */
  datatype Palette = Palette(begin: Hsv, middle: Hsv, end: Hsv)

  /** The angle deflection of a type: a constant, or a factor times one `getForParam` draw. */
  datatype Spread = Fixed(width: real) | Jittered(factor: real)

  /** One branch of the constructor's `switch`, starting from the field
      defaults of `Particle` and `Emitter`. */
  datatype Row = Row(speed: real, slowdownRatio: real, targetSize: real,
                     middleTicks: real, endTicks: real, spread: Spread,
                     speedDeflection: real, sizeDeflection: real, ticksDeflection: real,
                     count: real, palette: Option<Palette>)

  /** What an emitter holds once constructed (its `base` particle's numbers,
      the four deflections and the count). */
  datatype Template = Template(speed: real, slowdownRatio: real, targetSize: real,
                               middleTicks: real, endTicks: real,
                               angleDeflection: real, speedDeflection: real,
                               sizeDeflection: real, ticksDeflection: real, count: real)

  /** The fields of `EmitOptions` the engine reads (absent fields are `None`). */
  datatype EmitOptions = EmitOptions(hue: Option<real>, sizeScale: Option<real>, countScale: Option<real>,
                                     speed: Option<real>, slowdownRatio: Option<real>,
                                     velX: Option<real>, velY: Option<real>)

  /** `patternName[0]`: undefined for the empty name. */
  function TypeCode(patternName: string): (c: Option<char>)
    ensures c.Some? <==> |patternName| > 0
    ensures c.Some? ==> c.value == patternName[0]
  {
    if |patternName| == 0 then None else Some(patternName[0])
  }

  /** The defaults an unrecognised code keeps: `Particle`'s speed 1, slowdown
      0.01, target size 10 and ticks 20/60, `Emitter`'s deflections 0, 0.5,
      0.5, 0.3 and count 1, and no colours. */
  const DEFAULT_ROW: Row := Row(1.0, 0.01, 10.0, 20.0, 60.0, Fixed(0.0), 0.5, 0.5, 0.3, 1.0, None)

  /** The constructor's table. `middleValue` is the value of the middle
      colour: 0.9 in src/index.ts, 1 in src/ppe/index.ts. */
  function TypeRow(code: Option<char>, middleValue: real): Row {
    match code
    case Some('e') =>
      Row(0.7, 0.05, 10.0, 20.0, 30.0, Fixed(PI * 2.0), 0.5, 0.5, 0.3, 15.0,
          Some(Palette(Hsv(1.0, 0.5, 0.3), Hsv(0.2, middleValue, 0.1), Hsv(0.0, 0.0, 0.0))))
    case Some('m') =>
      Row(1.5, 0.025, 5.0, 10.0, 20.0, Jittered(0.3), 0.5, 0.5, 0.3, 10.0,
          Some(Palette(Hsv(0.5, 0.5, 0.3), Hsv(1.0, middleValue, 0.3), Hsv(0.75, 0.75, 0.2))))
    case Some('s') =>
      Row(0.5, 0.025, 5.0, 10.0, 20.0, Fixed(PI * 2.0), 0.5, 0.5, 0.3, 10.0,
          Some(Palette(Hsv(0.5, 0.5, 0.3), Hsv(1.0, middleValue, 0.3), Hsv(0.75, 0.75, 0.2))))
    case Some('t') =>
      Row(0.1, 0.03, 3.0, 30.0, 40.0, Jittered(0.5), 0.1, 0.1, 0.1, 0.5,
          Some(Palette(Hsv(0.7, 0.7, 0.4), Hsv(1.0, middleValue, 0.2), Hsv(0.7, 0.7, 0.1))))
    case Some('j') =>
      Row(1.0, 0.03, 7.0, 15.0, 20.0, Jittered(0.5), 0.1, 0.1, 0.1, 0.5,
          Some(Palette(Hsv(0.7, 0.7, 0.4), Hsv(1.0, middleValue, 0.2), Hsv(0.7, 0.7, 0.1))))
    case _ => DEFAULT_ROW
  }

  /** The five recognised codes. */
  predicate Known(code: Option<char>) {
    code == Some('e') || code == Some('m') || code == Some('s') || code == Some('t') || code == Some('j')
  }

  /** Draws the constructor takes before the nine field draws: one for an
      absent hue, one for a jittered angle deflection. */
  function Lead(spread: Spread, hue: Option<real>): nat {
    (if hue.None? then 1 else 0) + (if spread.Jittered? then 1 else 0)
  }

  /** All draws the constructor takes from its generator. */
  function DrawCount(spread: Spread, hue: Option<real>): nat {
    Lead(spread, hue) + 9
  }

  /** The emitter's hue: the option, else the first draw (`get()` of the
      main generator, `get01()` of the legacy one). */
  function HueOf(hue: Option<real>, us: seq<real>): real
    requires hue.None? ==> |us| > 0
  {
    if hue.None? then us[0] else hue.value
  }

  /** `getForParam` on a draw `u`: `u + 0.5`. */
  function Param(u: real): real {
    u + 0.5
  }

  /** The nine `getForParam` factors of the constructor, in draw order;
      `span` multiplies the table's endTicks - middleTicks. */
  datatype Factors = Factors(speed: real, slowdownRatio: real, targetSize: real,
                             middleTicks: real, span: real, speedDeflection: real,
                             sizeDeflection: real, ticksDeflection: real, count: real)

  /** The factors `getForParam` yields from the nine draws starting at `us[k]`. */
  function FactorsAt(us: seq<real>, k: nat): Factors
    requires k + 9 <= |us|
  {
    Factors(Param(us[k]), Param(us[k + 1]), Param(us[k + 2]), Param(us[k + 3]), Param(us[k + 4]),
            Param(us[k + 5]), Param(us[k + 6]), Param(us[k + 7]), Param(us[k + 8]))
  }

  /** The template from a row, the options, the angle deflection and the
      nine factors: the speed and slowdown overrides replace the row's
      values, speed and target size are scaled by sizeScale·scaleRatio and
      the count by countScale, then each field is multiplied by its factor;
      endTicks is the jittered middleTicks plus the row's span times its factor. */
  function Fill(row: Row, o: EmitOptions, scaleRatio: real, angleDeflection: real, f: Factors): Template {
    var scale := o.sizeScale.GetOr(1.0) * scaleRatio;
    var middle := row.middleTicks * f.middleTicks;
    Template(
      speed := o.speed.GetOr(row.speed) * scale * f.speed,
      slowdownRatio := o.slowdownRatio.GetOr(row.slowdownRatio) * f.slowdownRatio,
      targetSize := row.targetSize * scale * f.targetSize,
      middleTicks := middle,
      endTicks := middle + (row.endTicks - row.middleTicks) * f.span,
      angleDeflection := angleDeflection,
      speedDeflection := row.speedDeflection * f.speedDeflection,
      sizeDeflection := row.sizeDeflection * f.sizeDeflection,
      ticksDeflection := row.ticksDeflection * f.ticksDeflection,
      count := row.count * o.countScale.GetOr(1.0) * f.count)
  }

  /** The template the constructor leaves, given the draws `us` of its
      generator in order: the hue draw if the option is absent, the angle
      draw if the type jitters its angle, then the nine factor draws. */
  function Build(row: Row, o: EmitOptions, scaleRatio: real, us: seq<real>): Template
    requires |us| == DrawCount(row.spread, o.hue)
  {
    var k := Lead(row.spread, o.hue);
    Fill(row, o, scaleRatio, Width(row.spread, us, k), FactorsAt(us, k))
  }

  /** The angle deflection: a fixed width, or the factor times the
      `getForParam` of the draw just before the nine field draws. */
  function Width(spread: Spread, us: seq<real>, k: nat): real
    requires spread.Jittered? ==> 0 < k <= |us|
  {
    match spread
    case Fixed(w) => w
    case Jittered(f) => Swing(f, Param(us[k - 1]))
  }

  /** A jittered angle deflection: the type's factor times its `getForParam` draw. */
  function Swing(factor: real, p: real): real {
    factor * p
  }

  /** Every draw lies in [lo, 1]. */
  predicate DrawsIn(us: seq<real>, lo: real) {
    forall i :: 0 <= i < |us| ==> lo <= us[i] <= 1.0
  }

  /** With draws in [0,1] (the main generator), every type's phases are
      ordered: middleTicks is the table's times a factor in [0.5,1.5], and
      endTicks lies past it by the table's span times such a factor, so by
      at least half the span. */
  lemma {:induction false} TicksOrdered(code: Option<char>, middleValue: real, o: EmitOptions,
                                        scaleRatio: real, us: seq<real>)
    requires |us| == DrawCount(TypeRow(code, middleValue).spread, o.hue)
    requires DrawsIn(us, 0.0)
    ensures var row := TypeRow(code, middleValue);
            var t := Build(row, o, scaleRatio, us);
            0.5 * row.middleTicks <= t.middleTicks <= 1.5 * row.middleTicks
            && 0.5 * (row.endTicks - row.middleTicks) <= t.endTicks - t.middleTicks
            && t.endTicks - t.middleTicks <= 1.5 * (row.endTicks - row.middleTicks)
    ensures var t := Build(TypeRow(code, middleValue), o, scaleRatio, us);
            0.0 < t.middleTicks < t.endTicks
  {
    var row := TypeRow(code, middleValue);
    var k := Lead(row.spread, o.hue);
    assert 0.0 <= us[k + 3] <= 1.0 && 0.0 <= us[k + 4] <= 1.0;
    FactorBounds(row.middleTicks, us[k + 3]);
    FactorBounds(row.endTicks - row.middleTicks, us[k + 4]);
  }

  /** A positive base times a `getForParam` factor stays within half to one and a half times it. */
  lemma FactorBounds(base: real, u: real)
    requires 0.0 < base && 0.0 <= u <= 1.0
    ensures 0.5 * base <= base * Param(u) <= 1.5 * base
  {
    assert base * Param(u) == base * u + 0.5 * base;
    assert 0.0 <= base * u <= base;
  }

  /** The legacy generator's draws go down to -2^31/(2^31-1), so its
      `getForParam` can be negative: with such draws the jittered middleTicks
      is negative and endTicks lies before it, for every recognised type. */
  lemma {:induction false} LegacyTicksInverted(code: Option<char>, o: EmitOptions, scaleRatio: real, us: seq<real>)
    requires Known(code)
    requires |us| == DrawCount(TypeRow(code, 1.0).spread, o.hue)
    requires us[Lead(TypeRow(code, 1.0).spread, o.hue) + 3] == -1.0
    requires us[Lead(TypeRow(code, 1.0).spread, o.hue) + 4] == -1.0
    ensures var t := Build(TypeRow(code, 1.0), o, scaleRatio, us);
            t.middleTicks < 0.0 && t.endTicks < t.middleTicks
  {
  }

  /** An unrecognised or missing code keeps every default, takes no angle
      draw and sets no colour; a recognised one always sets all three. */
  lemma UnknownTypeDefaults(code: Option<char>, middleValue: real)
    ensures !Known(code) <==> TypeRow(code, middleValue) == DEFAULT_ROW
    ensures !Known(code) <==> TypeRow(code, middleValue).palette.None?
    ensures !Known(code) ==> DrawCount(TypeRow(code, middleValue).spread, None) == 10
  {
  }

  /** Only "m", "t" and "j" draw for the angle deflection. */
  lemma AngleDraw(code: Option<char>, middleValue: real)
    ensures TypeRow(code, middleValue).spread.Jittered?
        <==> code == Some('m') || code == Some('t') || code == Some('j')
  {
  }

  /** The two tables differ only in the value of the middle colour. */
  lemma TablesAgree(code: Option<char>)
    ensures TypeRow(code, 0.9).(palette := None) == TypeRow(code, 1.0).(palette := None)
    ensures TypeRow(code, 0.9).palette.Some?
        ==> TypeRow(code, 1.0).palette
            == Some(TypeRow(code, 0.9).palette.value.(middle := TypeRow(code, 0.9).palette.value.middle.(value := 1.0)))
  {
  }

  /** Scaling `sizeScale` by c scales the template's speed (an overriding
      speed included, since scaling comes after the override) and target size
      by c and changes nothing else; scaling `countScale` by c scales the
      count by c alone. */
  lemma {:induction false} ScaleLinear(row: Row, o: EmitOptions, scaleRatio: real, us: seq<real>, c: real)
    requires |us| == DrawCount(row.spread, o.hue)
    ensures var t := Build(row, o, scaleRatio, us);
            var s := Build(row, o.(sizeScale := Some(c * o.sizeScale.GetOr(1.0))), scaleRatio, us);
            s.speed == c * t.speed && s.targetSize == c * t.targetSize
            && s.(speed := t.speed, targetSize := t.targetSize) == t
    ensures var t := Build(row, o, scaleRatio, us);
            var n := Build(row, o.(countScale := Some(c * o.countScale.GetOr(1.0))), scaleRatio, us);
            n.count == c * t.count && n.(count := t.count) == t
  {
    var k := Lead(row.spread, o.hue);
    var scale := o.sizeScale.GetOr(1.0) * scaleRatio;
    var sp := o.speed.GetOr(row.speed);
    assert sp * ((c * o.sizeScale.GetOr(1.0)) * scaleRatio) * Param(us[k]) == c * (sp * scale * Param(us[k]));
    assert row.targetSize * ((c * o.sizeScale.GetOr(1.0)) * scaleRatio) * Param(us[k + 2])
        == c * (row.targetSize * scale * Param(us[k + 2]));
    assert row.count * (c * o.countScale.GetOr(1.0)) * Param(us[k + 8])
        == c * (row.count * o.countScale.GetOr(1.0) * Param(us[k + 8]));
  }

  /** An override replaces the table value before any scaling: a template
      built with a speed (or slowdown ratio) option is the one built
      without it from a row holding that value. */
  lemma OverrideWins(row: Row, o: EmitOptions, scaleRatio: real, us: seq<real>)
    requires |us| == DrawCount(row.spread, o.hue)
    ensures o.speed.Some? ==> Build(row, o, scaleRatio, us) == Build(row.(speed := o.speed.value), o.(speed := None), scaleRatio, us)
    ensures o.slowdownRatio.Some?
        ==> Build(row, o, scaleRatio, us) == Build(row.(slowdownRatio := o.slowdownRatio.value), o.(slowdownRatio := None), scaleRatio, us)
  {
  }

  // ----- emit -----

  /** `(r - 0.5) * deflection`: the jitter of the spawn angle. */
  function Offset(r: real, deflection: real): real {
    (r - 0.5) * deflection
  }

  /** `(r * 2 - 1) * deflection + 1`: a factor within `deflection` of 1. */
  function Deflected(r: real, deflection: real): real {
    (r * 2.0 - 1.0) * deflection + 1.0
  }

  /** The five `Math.random` draws behind one new particle, in draw order. */
  datatype SpawnDraws = SpawnDraws(angle: real, speed: real, size: real, middle: real, end: real)

  /** The numbers of a particle `emit` creates, from five draws `d` of
      `Math.random`: at (x, y), size 0, ticks 0, the template's slowdown,
      the angle jittered by up to half the angle deflection either way, and
      speed, target size, middle and end ticks each times its own factor. */
  function SpawnBody(t: Template, x: real, y: real, angle: real, d: SpawnDraws): Body {
    Body(Vector(x, y), angle + Offset(d.angle, t.angleDeflection),
         t.speed * Deflected(d.speed, t.speedDeflection), t.slowdownRatio,
         0.0, t.targetSize * Deflected(d.size, t.sizeDeflection),
         t.middleTicks * Deflected(d.middle, t.ticksDeflection),
         t.endTicks * Deflected(d.end, t.ticksDeflection), 0.0)
  }

  /** How many particles one `emit` creates, `u` being the draw taken when
      count < 1: none when count < 1 and count < u, else ceil(count). */
  function SpawnCount(count: real, u: real): (n: nat)
    ensures n == 0 || n == CountBelow(count)
    ensures 1.0 <= count ==> n == CountBelow(count)
  {
    if count < 1.0 && count < u then 0 else CountBelow(count)
  }

  /** A count below 1 acts as a probability: with u a draw in [0,1), the
      emit spawns one particle exactly when u <= count (and none when count <= 0). */
  lemma SpawnChance(count: real, u: real)
    requires count < 1.0 && 0.0 <= u < 1.0
    ensures SpawnCount(count, u) == (if 0.0 < count && u <= count then 1 else 0)
  {
  }

  /** The spawn angle lies in [angle - deflection/2, angle + deflection/2)
      for a draw in [0,1) and a non-negative deflection. */
  lemma SpawnAngle(t: Template, x: real, y: real, angle: real, d: SpawnDraws)
    requires 0.0 <= d.angle < 1.0 && 0.0 <= t.angleDeflection
    ensures var a := SpawnBody(t, x, y, angle, d).angle;
            angle - t.angleDeflection / 2.0 <= a
            && (a < angle + t.angleDeflection / 2.0 || t.angleDeflection == 0.0)
  {
    HalfSpread(d.angle, t.angleDeflection);
  }

  /** For a draw in [0,1) and a non-negative width, the offset lies in [-width/2, width/2). */
  lemma HalfSpread(r: real, w: real)
    requires 0.0 <= r < 1.0 && 0.0 <= w
    ensures -(w / 2.0) <= Offset(r, w)
    ensures Offset(r, w) < w / 2.0 || w == 0.0
  {
    ProductNonNegative(r, w);
    if w > 0.0 {
      ProductPositive(1.0 - r, w);
    }
  }

  /** With draws in [0,1] from the main generator and spawn draws in [0,1],
      every particle of every type starts with positive middle and end ticks,
      so its first update finds it live and draws it. */
  lemma {:induction false} SpawnLive(code: Option<char>, middleValue: real, o: EmitOptions,
                                     scaleRatio: real, us: seq<real>,
                                     x: real, y: real, angle: real, d: SpawnDraws)
    requires |us| == DrawCount(TypeRow(code, middleValue).spread, o.hue)
    requires DrawsIn(us, 0.0)
    requires 0.0 <= d.middle <= 1.0 && 0.0 <= d.end <= 1.0
    ensures var b := SpawnBody(Build(TypeRow(code, middleValue), o, scaleRatio, us), x, y, angle, d);
            0.0 < b.middleTicks && 0.0 < b.endTicks && Live(b)
  {
    var row := TypeRow(code, middleValue);
    var t := Build(row, o, scaleRatio, us);
    TicksOrdered(code, middleValue, o, scaleRatio, us);
    var k := Lead(row.spread, o.hue);
    assert 0.0 <= us[k + 7] <= 1.0;
    assert 0.0 < row.ticksDeflection <= 0.3;
    assert 0.0 <= t.ticksDeflection <= 0.45;
    DeflectedPositive(d.middle, t.ticksDeflection);
    DeflectedPositive(d.end, t.ticksDeflection);
    ProductPositive(t.middleTicks, Deflected(d.middle, t.ticksDeflection));
    ProductPositive(t.endTicks, Deflected(d.end, t.ticksDeflection));
  }

  lemma DeflectedPositive(r: real, deflection: real)
    requires 0.0 <= r <= 1.0 && 0.0 <= deflection < 1.0
    ensures 0.0 < Deflected(r, deflection)
  {
    var e := r * 2.0 - 1.0;
    assert -1.0 <= e <= 1.0;
    assert -deflection <= e * deflection;
  }

  lemma ProductNonNegative(a: real, b: real)
    requires 0.0 <= a && 0.0 <= b
    ensures 0.0 <= a * b
  {
  }

  lemma ProductPositive(a: real, b: real)
    requires 0.0 < a && 0.0 < b
    ensures 0.0 < a * b
  {
  }
}

=== FILE: util.dfy ===
/** Small generic helpers shared by the whole model. */
module Util {

  datatype Option<T> = None | Some(value: T) {
    function GetOr(default: T): T {
      match this
      case Some(v) => v
      case None => default
    }
  }

  /** No element occurs twice. */
  predicate NoDup<T(==)>(xs: seq<T>) {
    forall i, j :: 0 <= i < j < |xs| ==> xs[i] != xs[j]
  }

  /** No element of `a` occurs in `b`. */
  predicate Disjoint<T(==)>(a: seq<T>, b: seq<T>) {
    forall x :: x in a ==> x !in b
  }

  /** Number of `true` entries. */
  function Count(keep: seq<bool>): nat {
    if keep == [] then 0
    else Count(keep[..|keep| - 1]) + (if keep[|keep| - 1] then 1 else 0)
  }

  /** The elements of `xs` whose `keep` entry is true, in their original order:
      what a left-to-right loop that splices out the other elements leaves. */
  function Select<T>(xs: seq<T>, keep: seq<bool>): seq<T>
    requires |xs| == |keep|
  {
    if xs == [] then []
    else Select(xs[..|xs| - 1], keep[..|xs| - 1]) + (if keep[|xs| - 1] then [xs[|xs| - 1]] else [])
  }

  /** One more element processed: the kept prefix grows by that element or not at all. */
  lemma SelectSnoc<T>(xs: seq<T>, keep: seq<bool>, n: nat)
    requires |xs| == |keep| && n < |xs|
    ensures Select(xs[..n + 1], keep[..n + 1])
         == Select(xs[..n], keep[..n]) + (if keep[n] then [xs[n]] else [])
    ensures Count(keep[..n + 1]) == Count(keep[..n]) + (if keep[n] then 1 else 0)
  {
    assert xs[..n + 1][..n] == xs[..n];
    assert keep[..n + 1][..n] == keep[..n];
  }

  /** Survivors: exactly the kept elements, as many as there are `true` marks. */
  lemma {:induction false} SelectSpec<T>(xs: seq<T>, keep: seq<bool>)
    requires |xs| == |keep|
    ensures |Select(xs, keep)| == Count(keep)
    ensures forall x :: x in Select(xs, keep) <==> exists i :: 0 <= i < |xs| && keep[i] && xs[i] == x
  {
    if xs != [] {
      var n := |xs| - 1;
      SelectSpec(xs[..n], keep[..n]);
      forall x
        ensures x in Select(xs, keep) <==> exists i :: 0 <= i < |xs| && keep[i] && xs[i] == x
      {
        if x in Select(xs[..n], keep[..n]) {
          var i :| 0 <= i < n && keep[..n][i] && xs[..n][i] == x;
          assert keep[i] && xs[i] == x;
        }
        if exists i :: 0 <= i < |xs| && keep[i] && xs[i] == x {
          var i :| 0 <= i < |xs| && keep[i] && xs[i] == x;
          if i < n {
            assert keep[..n][i] && xs[..n][i] == x;
          }
        }
      }
    }
  }

  /** Selecting from a list without duplicates gives a list without duplicates. */
  lemma {:induction false} SelectNoDup<T>(xs: seq<T>, keep: seq<bool>)
    requires |xs| == |keep| && NoDup(xs)
    ensures NoDup(Select(xs, keep))
  {
    if xs != [] {
      var n := |xs| - 1;
      assert NoDup(xs[..n]);
      SelectNoDup(xs[..n], keep[..n]);
      var p := Select(xs[..n], keep[..n]);
      forall k | 0 <= k < |p|
        ensures p[k] != xs[n]
      {
        var i := SelectedFrom(xs[..n], keep[..n], p[k]);
        assert xs[i] == p[k];
      }
      assert Select(xs, keep) == p + (if keep[n] then [xs[n]] else []);
    }
  }

  /** A survivor sits at a kept position of the original list. */
  lemma SelectedFrom<T>(xs: seq<T>, keep: seq<bool>, x: T) returns (i: nat)
    requires |xs| == |keep| && x in Select(xs, keep)
    ensures i < |xs| && keep[i] && xs[i] == x
  {
    SelectSpec(xs, keep);
    i :| 0 <= i < |xs| && keep[i] && xs[i] == x;
  }

  /** Every survivor was in the original list. */
  lemma SelectSubset<T>(xs: seq<T>, keep: seq<bool>)
    requires |xs| == |keep|
    ensures forall x :: x in Select(xs, keep) ==> x in xs
  {
    SelectSpec(xs, keep);
  }

  /** One step of the splicing loop over `xs`: with the first `n` elements
      processed (`cur` holds their survivors `done`, then the rest), the next
      element sits just past the survivors, and keeping it or splicing it out
      leaves the same shape one element further. */
  lemma SpliceStep<T>(xs: seq<T>, keep: seq<bool>, n: nat, done: seq<T>, cur: seq<T>)
    requires |xs| == |keep| && n < |xs|
    requires done == Select(xs[..n], keep[..n]) && cur == done + xs[n..]
    ensures |done| < |cur| && cur[|done|] == xs[n]
    ensures keep[n] ==> cur == Select(xs[..n + 1], keep[..n + 1]) + xs[n + 1..]
    ensures !keep[n] ==> cur[..|done|] + cur[|done| + 1..] == Select(xs[..n + 1], keep[..n + 1]) + xs[n + 1..]
    ensures Count(keep[..n + 1]) == Count(keep[..n]) + (if keep[n] then 1 else 0)
  {
    SelectSnoc(xs, keep, n);
    assert xs[n..] == [xs[n]] + xs[n + 1..];
    if !keep[n] {
      assert cur[..|done|] == done;
      assert cur[|done| + 1..] == xs[n + 1..];
    }
  }
}
